=== FILE: README.md ===
# Klondike solitaire rule engine (compose-solitaire) in Dafny

This project models the rule engine and session bookkeeping of a Kotlin
Compose Desktop Klondike solitaire game. It covers:

- cards, ranks, suits and colours (`Cards`, card.dfy);
- piles of cards and their value-returning edits (`Piles`, pile.dfy);
- the board with its tableau, foundation, stock and waste piles (`GameStates`, game_state.dfy);
- the move finder that decides where a double-clicked card goes, and
  recycling the waste into the stock (`GameLogic`, game_logic.dfy);
- the session record with its move counter, timer fields and undo history
  (`UiStates`, game_ui_state.dfy);
- the view model's event handlers (double click, stock click, undo) as pure
  steps from one session record to the next (`ViewModel`, game_view_model.dfy);
- the properties that tie these together (`ViewModelFacts`,
  game_view_model_facts.dfy);
- the unit tests of the move finder, replayed as lemmas (`Scenarios`,
  scenarios.dfy).

`Optional` (optional.dfy) stands in for Kotlin's nullable results and for
thrown exceptions. `Seqs` (seqs.dfy) models the Kotlin list operations the
code uses: `indexOf`, `minus`, `filter`, `find`/`firstOrNull` and `reversed`.

Kotlin's nullable types become `Option`. The two pile operations `removeCards(n)` and
`removeTopCard()` are defined elsewhere in the Kotlin project. They are
assumed to fail on too few cards, since their call sites at
GameViewModel.kt:64 and :101 use the result without a check; here the
failure is a `Result` value with a `PileError`. Where the view
model takes the successful value, its guard (the card is in the pile, or the
stock is not empty) is what makes the access well defined.

Several helpers that this code calls are defined elsewhere in the Kotlin
project. They are assumed here as follows, each from its call sites and the
unit tests:

- `findPileWithCard` returns the first pile that holds the card, searching
  tableau, then foundation, then stock, then waste. The Kotlin code has no
  list of all piles; `GameState.AllPiles` is this model's own device for
  that search order, and `updatePile` uses the same order.
- `updatePile(old, new)` replaces the first pile equal by value to `old`.
  It changes nothing when no pile is equal to `old`.
- `isGameWon` holds when there are exactly four foundation piles of 13 cards each.
  Only the counts are checked, not which cards the piles hold.
- `Rank.isPreviousInSequence(o)` means the rank's value plus one equals `o`'s value.
  `isNextInSequence(o)` means the rank's value is `o`'s value plus one.
- `Pile.isValidTableauSequence` holds when each adjacent pair alternates
  colour and descends by one.
- `Pile.removeCards(n)` takes the top `n` cards. `Pile.removeTopCard()` takes
  the top card.

The model follows the Kotlin code, including these behaviours a reader may
not expect:

- `cycleWasteToStock` reverses the waste into the stock but does not turn
  the cards face down.
- `makeMove` never turns over a face-down card that a move exposes.
- Card equality compares suit, rank and face-up flag, because `Card` is a
  data class. The same card face down is therefore a different value.
- `findTableauMove` checks that the run is valid only when the target column
  is non-empty. A king goes to an empty column whatever lies on it.
- `findValidMove` restricts the source pile in only one way: a waste card must
  be the waste's top card. Any pile that holds the card can be a source,
  including the stock and a foundation.

Follow-on behaviour of the model: `makeMove` updates piles by value. Say a
column holds only a run that starts with a king, and the target is an empty
column that comes later on the board. After the run is removed, the source
column equals the empty target by value. The second `updatePile` then hits the
source column again, and the board is left unchanged. The move is still
counted and recorded for undo. `ViewModelFacts.WholeColumnToLaterEmptyColumn`
states this in general, and `Scenarios.KingToEmptyColumnLeavesBoard` shows it
on a concrete board. This depends on the assumed first-match `updatePile`
above.

Card preservation depends on that choice too. `ViewModelFacts.ApplyMoveKeepsCards`
and `ViewModelFacts.DoubleClickKeepsCards` hold because `updatePile` replaces
only the first equal pile. Another reading fits the call at
GameViewModel.kt:70-72 as well: replacing every equal pile, as
`map { if (it == old) new else it }` would. Under that reading a double click
can duplicate cards. `ViewModelFacts.ApplyMoveEverywhere` models the move under
that reading, and `Scenarios.UpdateReadingsDiffer` shows a board where a lone
king moved to an empty column leaves a king in all three columns.

## Model

| member | source | states |
|---|---|---|
| Cards.Rank.Value | src/main/kotlin/org/arhan/solitaire/model/Card.kt:15-29 | a rank's value lies in 1..13; it is 1 exactly for the ace and 13 exactly for the king |
| Cards.RanksAscendByOne | src/main/kotlin/org/arhan/solitaire/model/Card.kt:15-29 | the thirteen ranks, in declaration order, have the values 1 to 13 |
| Cards.RankOfValue | src/main/kotlin/org/arhan/solitaire/model/Card.kt:15-29 | a value has a rank exactly when it lies in 1..13, and that rank has the value |
| Cards.RankValueRoundTrip | src/main/kotlin/org/arhan/solitaire/model/Card.kt:15-29 | looking up a rank's value gives the rank back |
| Cards.SequenceOrderConverse | src/main/kotlin/org/arhan/solitaire/game/GameLogic.kt:54 | for `Rank.IsPreviousInSequence` and `Rank.IsNextInSequence`: "a precedes b" holds exactly when "b follows a"; nothing follows a king and nothing precedes an ace |
| Cards.ColourIsSuitColour | src/main/kotlin/org/arhan/solitaire/model/Card.kt:11-32 | for `Suit.IsRed` and `Card.IsRed`: a card is red exactly when its suit is hearts or diamonds, so cards of one suit share a colour |
| Cards.FaceUpCopyDiffers | src/main/kotlin/org/arhan/solitaire/model/Card.kt:3-7 | a card and its copy with the face-up flag flipped are different values of the same colour |
| Piles.Pile.IsEmpty | src/main/kotlin/org/arhan/solitaire/model/Pile.kt:14-18 | `isEmpty` and `size` (`Pile.Size`) agree: a pile is empty exactly when its size is zero |
| Piles.Pile.TopCard | src/main/kotlin/org/arhan/solitaire/model/Pile.kt:20-21 | there is no top card exactly when the pile is empty; otherwise it is the last card |
| Piles.Pile.AddCard | src/main/kotlin/org/arhan/solitaire/model/Pile.kt:23 | the card becomes the new top, above the unchanged old cards; the pile type is kept |
| Piles.Pile.RemoveCard | src/main/kotlin/org/arhan/solitaire/model/Pile.kt:25 | only the first equal card is removed, the rest stay in order; the pile is unchanged when no card is equal; otherwise the pile's multiset plus that card is the old multiset |
| Piles.Pile.AddCards | src/main/kotlin/org/arhan/solitaire/model/Pile.kt:27 | the new cards sit, in order, above the unchanged old cards |
| Piles.Pile.RemoveCards | src/main/kotlin/org/arhan/solitaire/model/Pile.kt:29 | the result keeps exactly the cards not listed for removal |
| Piles.RemoveCardsSplits | src/main/kotlin/org/arhan/solitaire/model/Pile.kt:29 | filtering a pile filters each part separately, so the kept cards keep their order |
| Piles.RemoveCardsAbsent | src/main/kotlin/org/arhan/solitaire/model/Pile.kt:29 | removing cards that are not in the pile changes nothing |
| Piles.Pile.RemoveTopCards | src/main/kotlin/org/arhan/solitaire/ui/GameViewModel.kt:64 | fails with too few cards exactly when more cards are asked for than the pile has; otherwise it returns n cards, and adding them back rebuilds the pile |
| Piles.Pile.RemoveTopCard | src/main/kotlin/org/arhan/solitaire/ui/GameViewModel.kt:101 | fails exactly on an empty pile; otherwise it returns the top card, and adding it back rebuilds the pile |
| Piles.AddRemoveCardInverse | src/main/kotlin/org/arhan/solitaire/model/Pile.kt:23 | removing the top card after adding a card returns that card and the original pile |
| Piles.RemoveOtherFaceIsNoOp | src/main/kotlin/org/arhan/solitaire/model/Pile.kt:25 | in a pile where every card has the same face-up flag, removing a card with the other flag changes nothing, while removing the card itself does |
| Piles.IsValidTableauSequence | src/main/kotlin/org/arhan/solitaire/game/GameLogic.kt:106 | a run is valid exactly when every card stacks on the one below it: the colours differ and the rank drops by one |
| GameStates.GameState.AllPiles | src/main/kotlin/org/arhan/solitaire/model/GameState.kt:3-8 | the list has one slot per pile of the board, with the stock and the waste in the last two places |
| GameStates.AllPilesInSearchOrder | src/main/kotlin/org/arhan/solitaire/model/GameState.kt:3-8 | every pile of the board appears once, in search order: the tableau columns in order, then the foundations in order, then the stock, then the waste |
| GameStates.GameState.FindPileWithCard | src/main/kotlin/org/arhan/solitaire/game/GameLogic.kt:19 | no pile is found exactly when no pile holds the card; otherwise the result is the first pile that holds it |
| GameStates.GameState.UpdatePile | src/main/kotlin/org/arhan/solitaire/ui/GameViewModel.kt:70-72 | the board keeps its shape, and nothing changes when no pile equals the old pile |
| GameStates.UpdatePileReplacesFirst | src/main/kotlin/org/arhan/solitaire/ui/GameViewModel.kt:70-72 | when the old pile is present, exactly its first occurrence among all piles is replaced by the new pile |
| GameStates.UpdatePileKeepsOthers | src/main/kotlin/org/arhan/solitaire/ui/GameViewModel.kt:70-72 | every pile that differs from the old pile is left in place |
| GameStates.UpdatePileCards | src/main/kotlin/org/arhan/solitaire/ui/GameViewModel.kt:70-72 | the board's cards, as a multiset, lose the old pile's cards and gain the new pile's cards |
| GameStates.UpdatePileWellTyped | src/main/kotlin/org/arhan/solitaire/ui/GameViewModel.kt:70-72 | replacing a pile with one of the same type keeps every slot holding its proper pile type |
| GameStates.WonMeansFullFoundations | src/main/kotlin/org/arhan/solitaire/game/GameLogic.kt:17 | for the assumed `GameState.IsGameWon`: won exactly when there are four foundations and every one holds 13 cards, 52 cards counted; on a board holding 52 cards in all, a win means every card is on a foundation and the other piles are empty |
| GameStates.AllPilesDetermineState | src/main/kotlin/org/arhan/solitaire/model/GameState.kt:3-8 | two boards with the same shape and the same list of all piles are equal |
| GameLogic.CycleWasteToStock | src/main/kotlin/org/arhan/solitaire/game/GameLogic.kt:8-15 | the waste is emptied into the stock in reverse order; the tableau and foundations are untouched |
| GameLogic.CycleKeepsCards | src/main/kotlin/org/arhan/solitaire/game/GameLogic.kt:8-15 | with an empty stock, recycling keeps the board's multiset of cards |
| GameLogic.CycleRestoresDrawOrder | src/main/kotlin/org/arhan/solitaire/game/GameLogic.kt:8-15 | the first card put on the waste becomes the stock's top card again, and pile types are kept |
| GameLogic.IsValidSequence | src/main/kotlin/org/arhan/solitaire/game/GameLogic.kt:100-109 | a run is movable exactly when all its cards are face up and each card stacks on the one below it |
| GameLogic.ValidSequenceAppend | src/main/kotlin/org/arhan/solitaire/game/GameLogic.kt:100-109 | two runs joined are valid exactly when each is valid and the second's first card stacks on the first's last card |
| GameLogic.CanPlaceOnTableau | src/main/kotlin/org/arhan/solitaire/game/GameLogic.kt:111-122 | only a king may go on an empty column; otherwise the card must stack on the column's top card |
| GameLogic.FoundationFitsIsRule | src/main/kotlin/org/arhan/solitaire/game/GameLogic.kt:47-56 | the foundation search accepts exactly the piles that the rule for foundations allows: an empty pile for an ace, otherwise a top card of the same suit one rank lower |
| GameLogic.TableauFiltersAreRule | src/main/kotlin/org/arhan/solitaire/game/GameLogic.kt:76-97 | the two tableau filters together keep exactly the columns that the tableau rule allows for the run starting at the card |
| GameLogic.FindFoundationMove | src/main/kotlin/org/arhan/solitaire/game/GameLogic.kt:39-60 | a foundation move exists exactly when the card is face up, is its pile's top card, and some foundation accepts it; the target is the first such foundation |
| GameLogic.FindTableauMove | src/main/kotlin/org/arhan/solitaire/game/GameLogic.kt:62-98 | a tableau move exists exactly when some other column accepts the run from the card: a non-empty column whose top the card stacks on, and only if the run is valid; or an empty column when the card is a king, whatever lies on it; the target is the first such column |
| GameLogic.FindValidMove | src/main/kotlin/org/arhan/solitaire/game/GameLogic.kt:18-37 | a move always comes from the first pile holding the card. There is no move for a waste card that is not the top card. Otherwise the first accepting foundation wins, then the first accepting column, else there is no move |
| GameLogic.FaceDownNeverMoves | src/main/kotlin/org/arhan/solitaire/game/GameLogic.kt:45-67 | a face-down card never has a move |
| GameLogic.RunsNeverGoToFoundation | src/main/kotlin/org/arhan/solitaire/game/GameLogic.kt:45 | a card with cards above it can only move to a tableau column |
| GameLogic.TableauMoveExtendsRun | src/main/kotlin/org/arhan/solitaire/game/GameLogic.kt:76-97 | after a tableau move onto a face-up top card, that top card and the moved run form one valid run |
| UiStates.GameUiState.CanUndo | src/main/kotlin/org/arhan/solitaire/ui/GameUiState.kt:14-15 | undo is possible exactly when there is history |
| UiStates.GameUiState.AddToUndoStack | src/main/kotlin/org/arhan/solitaire/ui/GameUiState.kt:17-18 | the state is pushed on top of the unchanged history; nothing else changes |
| UiStates.GameUiState.Undo | src/main/kotlin/org/arhan/solitaire/ui/GameUiState.kt:20-27 | there is no result exactly without history; otherwise the top snapshot is popped into the board, the move count drops by one, and the timer fields are kept |
| UiStates.GameUiState.IncrementMoves | src/main/kotlin/org/arhan/solitaire/ui/GameUiState.kt:29-33 | the move count rises by one and the timer runs; nothing else changes |
| UiStates.GameUiState.UpdateTimer | src/main/kotlin/org/arhan/solitaire/ui/GameUiState.kt:35-36 | only the elapsed time changes |
| UiStates.GameUiState.ResetGame | src/main/kotlin/org/arhan/solitaire/ui/GameUiState.kt:38-39 | the new board, no moves, no history, a stopped timer at zero |
| UiStates.AddThenUndo | src/main/kotlin/org/arhan/solitaire/ui/GameUiState.kt:17-27 | undo right after a push restores the pushed board and the old history, one move lower |
| UiStates.Record | src/main/kotlin/org/arhan/solitaire/ui/GameViewModel.kt:74-77 | a recorded step installs the next board, pushes the previous one on the history, counts one move, starts the timer and keeps the elapsed time |
| UiStates.RecordThenUndo | src/main/kotlin/org/arhan/solitaire/ui/GameViewModel.kt:74-77 | a recorded step keeps the move count equal to the history length, and undo restores the session apart from the running timer |
| UiStates.UndoKeepsConsistent | src/main/kotlin/org/arhan/solitaire/ui/GameUiState.kt:20-27 | undo keeps the move count equal to the history length |
| ViewModel.ApplyMove | src/main/kotlin/org/arhan/solitaire/ui/GameViewModel.kt:59-72 | the board keeps its shape, and every pile other than the source and the target is left in place |
| ViewModel.MakeMove | src/main/kotlin/org/arhan/solitaire/ui/GameViewModel.kt:55-78 | nothing happens when the card is not in the source; otherwise the previous board is pushed, the move count rises by one, and the run is moved |
| ViewModel.OnStockClick | src/main/kotlin/org/arhan/solitaire/ui/GameViewModel.kt:86-112 | every click is recorded and counted and starts the timer; an empty stock is refilled from the waste |
| ViewModel.Undo | src/main/kotlin/org/arhan/solitaire/ui/GameViewModel.kt:80-84 | without history nothing changes; otherwise the last snapshot comes back and the count drops by one |
| ViewModel.FoundationPass | src/main/kotlin/org/arhan/solitaire/ui/GameViewModel.kt:40-47 | the loop returns early exactly when there is a foundation pile and the move found targets a foundation, and it then makes that move |
| ViewModel.OnCardDoubleClick | src/main/kotlin/org/arhan/solitaire/ui/GameViewModel.kt:35-53 | whatever the loop does, the handler makes exactly the move the move finder reports, or nothing |
| ViewModelFacts.RunSplit | src/main/kotlin/org/arhan/solitaire/ui/GameViewModel.kt:59-64 | removing as many cards as the run holds leaves exactly the cards below the clicked card |
| ViewModelFacts.ApplyMoveKeepsCards | src/main/kotlin/org/arhan/solitaire/ui/GameViewModel.kt:59-72 | between two distinct piles of the board, a move keeps the board's multiset of cards, given the first-match `updatePile` |
| ViewModelFacts.ApplyMovePlacesRun | src/main/kotlin/org/arhan/solitaire/ui/GameViewModel.kt:59-72 | between two distinct piles, the source keeps the cards below the clicked card and the target gains the run on top; this covers every such move except a whole column onto an equal, later empty column, which `WholeColumnToLaterEmptyColumn` covers |
| ViewModelFacts.MakeMoveMovesRun | src/main/kotlin/org/arhan/solitaire/ui/GameViewModel.kt:55-78 | between two distinct piles (other than a whole column onto an equal, later empty column), a move leaves the cards below the clicked card in the source, puts the run on top of the target, pushes the old board and adds one to the count |
| ViewModelFacts.WholeColumnToLaterEmptyColumn | src/main/kotlin/org/arhan/solitaire/ui/GameViewModel.kt:70-72 | moving a whole column to a later empty column of the same type leaves the board unchanged |
| ViewModelFacts.StockClickDraws | src/main/kotlin/org/arhan/solitaire/ui/GameViewModel.kt:100-111 | on a well-typed board with a non-empty stock, the click moves the stock's top card face up onto the waste and leaves everything else alone |
| ViewModelFacts.ApplyMoveWellTyped | src/main/kotlin/org/arhan/solitaire/ui/GameViewModel.kt:59-72 | a move keeps every slot holding its proper pile type |
| ViewModelFacts.RecordKeepsSessionWellTyped | src/main/kotlin/org/arhan/solitaire/ui/GameViewModel.kt:74-77 | recording a well-typed board keeps the current board and every board in the history well typed |
| ViewModelFacts.StepKeepsInvariant | src/main/kotlin/org/arhan/solitaire/ui/GameViewModel.kt:35-112 | each event keeps the move count equal to the history length, and keeps all boards in the session well typed |
| ViewModelFacts.RunKeepsInvariant | src/main/kotlin/org/arhan/solitaire/ui/GameViewModel.kt:35-112 | any sequence of events keeps both invariants |
| ViewModelFacts.RunFromFreshKeepsInvariant | src/main/kotlin/org/arhan/solitaire/ui/GameViewModel.kt:14 | from a new session on a well-typed board, the invariants hold after any sequence of events |
| ViewModelFacts.DoubleClickKeepsCards | src/main/kotlin/org/arhan/solitaire/ui/GameViewModel.kt:35-53 | given the first-match `updatePile`, a double click never creates, loses or duplicates a card |
| ViewModelFacts.UndoRevertsSteps | src/main/kotlin/org/arhan/solitaire/ui/GameViewModel.kt:80-84 | undo right after a stock click, or after a double click that finds a move, restores the session apart from the running timer |
| Scenarios.FoundationBeatsTableau | src/test/kotlin/org/arhan/solitaire/game/GameLogicTest.kt:348-373 | a card that fits both a foundation and a column goes to the foundation |
| Scenarios.InvalidRunStays | src/test/kotlin/org/arhan/solitaire/game/GameLogicTest.kt:491-512 | a run that is not alternating and descending has no move |
| Scenarios.ValidRunMoves | src/test/kotlin/org/arhan/solitaire/game/GameLogicTest.kt:537-569 | a valid run moves onto the column whose top it extends |
| Scenarios.RunNotToFoundation | src/test/kotlin/org/arhan/solitaire/game/GameLogicTest.kt:514-535 | a card with cards above it is not sent to a foundation |
| Scenarios.KingToEmptyColumn | src/test/kotlin/org/arhan/solitaire/game/GameLogicTest.kt:115-140 | a king with a run above it moves to an empty column |
| Scenarios.KingToEmptyColumnLeavesBoard | src/main/kotlin/org/arhan/solitaire/ui/GameViewModel.kt:55-78 | on a board where a king's run fills its column, the double click counts a move but leaves the board as it was |
| Scenarios.WholeColumnToLaterEmptyColumnAt | src/main/kotlin/org/arhan/solitaire/ui/GameViewModel.kt:70-72 | the same holds for a board whose first two piles are the full column and the empty column |
| Scenarios.CycleReversesWaste | src/test/kotlin/org/arhan/solitaire/game/GameLogicTest.kt:269-297 | recycling a three-card waste gives a stock in reverse order and an empty waste |
| ViewModelFacts.ReplaceAll | src/main/kotlin/org/arhan/solitaire/ui/GameViewModel.kt:70-72 | the replace-every-match reading of `updatePile` on one list: every pile equal to the old one becomes the new one and the others stay |
| ViewModelFacts.UpdatePileEverywhere | src/main/kotlin/org/arhan/solitaire/ui/GameViewModel.kt:70-72 | that reading over the whole board: the shape is kept and every tableau column equal to the old pile is replaced |
| ViewModelFacts.ApplyMoveEverywhere | src/main/kotlin/org/arhan/solitaire/ui/GameViewModel.kt:59-72 | makeMove's board update under the replace-every-match reading; the board's shape is kept |
| Scenarios.KingTakesInvalidRunToEmptyColumn | src/main/kotlin/org/arhan/solitaire/game/GameLogic.kt:79-89 | a king carrying a run that is not valid still moves to an empty column |
| Scenarios.UpdateReadingsDiffer | src/main/kotlin/org/arhan/solitaire/ui/GameViewModel.kt:59-72 | with a lone king and two empty columns, the finder picks the first empty column; first match leaves the board unchanged, while replacing every match fills all three columns with kings and changes the card multiset |
| Scenarios.WinNeedsFourFullFoundations | src/test/kotlin/org/arhan/solitaire/game/GameLogicTest.kt:299-346 | one full foundation is not a win; four full foundations are |

## Left out

- The Compose user interface (`GameScreen`, `PileView`, `Piles`, `CardView`, `CardAnimation`, the UI `Card`, `Main`): drawing, animation and input only.
- The timer coroutine (`startTimer`, `onDestroy`): its one-second ticks are not modelled, because they depend on time and concurrency. `UpdateTimer`, which each tick calls, is modelled.
- `newGame` and `GameState.createInitialState`: the deal uses a random shuffle. `ResetGame` and `Fresh` take the dealt board as a parameter.
- `GameLogic.isGameWon` just delegates to `GameState.isGameWon`, which is defined elsewhere in the Kotlin project; `GameState.IsGameWon` is the assumed definition described above.
- The `[DEBUG_LOG]` prints in the move finder and in `isValidSequence`: they have no effect on results.
- GameStates.WonMeansFullFoundations: does not state that the foundations hold four complete, distinct suits, because the assumed `isGameWon` counts cards only; it states the count and, for a board of 52 cards, that all of them are on the foundations.
- UiStates.GameUiState.IncrementMoves: `moveCount` is an unbounded integer, so Kotlin's 32-bit `Int` wrap-around after 2^31 - 1 moves is not modelled.
- UiStates.GameUiState.UpdateTimer: `Duration` is modelled as a whole number of time units. Its nanosecond resolution and saturation are not modelled.
- GameStates.GameState.UpdatePile: its own contract states only the shape and the no-op case. `GameStates.UpdatePileReplacesFirst` states the replacement.
- GameLogic.FindFoundationMove: requires a non-empty source pile, since Kotlin's `last()` throws on an empty list. Every caller passes the pile that holds the card.
- The helpers listed above (`findPileWithCard`, `updatePile`, `isGameWon`, `isPreviousInSequence`, `isNextInSequence`, `isValidTableauSequence`, the `Int` overload `removeCards(n)` and `removeTopCard`) are defined elsewhere in the Kotlin project, not in the files modelled here. The model defines each of them as assumed above, from its call sites and the tests. The list-taking `removeCards` at Pile.kt:29 is modelled directly.

=== FILE: card.dfy ===
/** Playing cards (model/Card.kt): suit, rank and face orientation. */
module Cards {
  import opened Optional

  /** The four suits; hearts and diamonds are red. */
  datatype Suit = Hearts | Diamonds | Clubs | Spades {
    predicate IsRed() {
      this == Hearts || this == Diamonds
    }
  }

  /** The thirteen ranks in declaration order, ace low. */
  datatype Rank = Ace | Two | Three | Four | Five | Six | Seven
                | Eight | Nine | Ten | Jack | Queen | King
  {
    /** The numeric value Kotlin attaches to each enum entry. */
    function Value(): (v: int)
      ensures 1 <= v <= 13
      ensures v == 1 <==> this == Ace
      ensures v == 13 <==> this == King
    {
      match this
      case Ace => 1
      case Two => 2
      case Three => 3
      case Four => 4
      case Five => 5
      case Six => 6
      case Seven => 7
      case Eight => 8
      case Nine => 9
      case Ten => 10
      case Jack => 11
      case Queen => 12
      case King => 13
    }

    /** This rank sits directly below `other` (foundation building order).
        Defined elsewhere in the Kotlin project; assumed here as its call
        site at GameLogic.kt:54 uses it. */
    predicate IsPreviousInSequence(other: Rank) {
      Value() + 1 == other.Value()
    }

    /** This rank sits directly above `other` (tableau building order).
        Defined elsewhere in the Kotlin project; assumed here as its call
        site at GameLogic.kt:120 uses it. */
    predicate IsNextInSequence(other: Rank) {
      Value() == other.Value() + 1
    }
  }

  /** All ranks in the order the enum declares them. */
  const AllRanks: seq<Rank> :=
    [Ace, Two, Three, Four, Five, Six, Seven, Eight, Nine, Ten, Jack, Queen, King]

  /** The rank carrying value `v`, if any: an independent inverse of `Value`. */
  function RankOfValue(v: int): (r: Option<Rank>)
    ensures r.Some? <==> 1 <= v <= 13
    ensures r.Some? ==> r.value.Value() == v
  {
    if 1 <= v <= 13 then Some(AllRanks[v - 1]) else None
  }

  /** Declaration order is value order: each entry is one more than the one
      before, starting at the ace with 1. */
  lemma RanksAscendByOne()
    ensures |AllRanks| == 13
    ensures forall i :: 0 <= i < |AllRanks| ==> AllRanks[i].Value() == i + 1
  {
  }

  /** `RankOfValue` undoes `Value`, so distinct ranks have distinct values. */
  lemma RankValueRoundTrip(r: Rank)
    ensures RankOfValue(r.Value()) == Some(r)
  {
  }

  /** The previous/next predicates are converses of each other. */
  lemma SequenceOrderConverse(a: Rank, b: Rank)
    ensures a.IsPreviousInSequence(b) <==> b.IsNextInSequence(a)
    ensures a.IsPreviousInSequence(b) ==> a != King && b != Ace
  {
  }

  /** A card; equality is structural over all three fields, `faceUp`
      included. */
  datatype Card = Card(suit: Suit, rank: Rank, faceUp: bool) {
    predicate IsRed() {
      suit.IsRed()
    }
  }

  /** Colour depends on the suit alone, not on rank or orientation. */
  lemma ColourIsSuitColour(a: Card, b: Card)
    ensures a.suit == b.suit ==> a.IsRed() == b.IsRed()
    ensures a.IsRed() <==> a.suit == Hearts || a.suit == Diamonds
  {
  }

  /** Turning a card over yields a different card value. */
  lemma FaceUpCopyDiffers(c: Card)
    ensures c.(faceUp := !c.faceUp) != c
    ensures c.(faceUp := !c.faceUp).IsRed() == c.IsRed()
  {
  }
}

=== FILE: game_logic.dfy ===
/** The rule engine (game/GameLogic.kt): recycling the waste into the stock,
    and finding where a double-clicked card may go. */
module GameLogic {
  import opened Optional
  import opened Seqs
  import opened Cards
  import opened Piles
  import opened GameStates

  /** Kotlin `Triple<Pile, Pile, Card>`: source pile, target pile, card. */
  datatype Move = Move(source: Pile, target: Pile, card: Card)

  // ---------------------------------------------------------------------
  // Recycling
  // ---------------------------------------------------------------------

  /** Turns the waste over into a fresh stock. Cards keep their orientation
      (nothing is turned face-down) and whatever the stock held is dropped. */
  function CycleWasteToStock(s: GameState): (r: GameState)
    ensures r.tableau == s.tableau && r.foundation == s.foundation
    ensures r.waste == Pile(Waste, [])
    ensures r.stock.kind == Stock && |r.stock.cards| == |s.waste.cards|
    ensures forall i :: 0 <= i < |s.waste.cards| ==> r.stock.cards[i] == s.waste.cards[|s.waste.cards| - 1 - i]
  {
    var wasteCards := Reverse(s.waste.cards);
    s.(waste := Pile(Waste, []), stock := Pile(Stock, wasteCards))
  }

  // ---------------------------------------------------------------------
  // Sequence and placement tests
  // ---------------------------------------------------------------------

  /** A run may be moved as a unit only if every card is face up and it is
      a valid tableau sequence. */
  function IsValidSequence(cards: seq<Card>): (r: bool)
    ensures r <==> (forall i :: 0 <= i < |cards| ==> cards[i].faceUp)
                   && forall i :: 0 <= i < |cards| - 1 ==> StacksOn(cards[i], cards[i + 1])
  {
    if !(forall c <- cards :: c.faceUp) then false
    else IsValidTableauSequence(cards)
  }

  /** Whether `card` may be laid on the tableau pile `target`. */
  predicate CanPlaceOnTableau(card: Card, target: Pile)
    ensures CanPlaceOnTableau(card, target) <==>
      if |target.cards| == 0 then card.rank == King
      else StacksOn(target.cards[|target.cards| - 1], card)
  {
    if target.IsEmpty() then card.rank == King
    else
      match target.TopCard()
      case Some(top) => card.IsRed() != top.IsRed() && top.rank.IsNextInSequence(card.rank)
      case None => false
  }

  /** The test `findFoundationMove` applies to each foundation pile. */
  predicate FoundationAccepts(pile: Pile, card: Card) {
    if card.rank == Ace then pile.IsEmpty()
    else
      match pile.TopCard()
      case None => false
      case Some(top) => top.suit == card.suit && top.rank.IsPreviousInSequence(card.rank)
  }

  function FoundationFits(card: Card): Pile -> bool {
    (p: Pile) => FoundationAccepts(p, card)
  }

  /** First filter of `findTableauMove`: a different pile, empty for a king
      or accepting the run's first card. */
  function TableauPlaceable(source: Pile, card: Card, first: Card): Pile -> bool {
    (p: Pile) => p != source && ((p.IsEmpty() && card.rank == King) || (!p.IsEmpty() && CanPlaceOnTableau(first, p)))
  }

  /** Second filter of `findTableauMove`: empty piles skip the run check. */
  function RunAccepted(run: seq<Card>): Pile -> bool {
    (p: Pile) => p.IsEmpty() || IsValidSequence(run)
  }

  // ---------------------------------------------------------------------
  // The rules, stated declaratively
  // ---------------------------------------------------------------------

  /** `target` is a legal foundation destination for `card` taken from
      `source`: a single face-up top card, and either an ace onto an empty
      pile or the next rank of the same suit. */
  predicate FoundationRule(source: Pile, card: Card, target: Pile) {
    && card.faceUp
    && |source.cards| > 0 && source.cards[|source.cards| - 1] == card
    && if card.rank == Ace then |target.cards| == 0
       else
         && |target.cards| > 0
         && target.cards[|target.cards| - 1].suit == card.suit
         && target.cards[|target.cards| - 1].rank.Value() + 1 == card.rank.Value()
  }

  /** `target` is a legal tableau destination for the run starting at
      `card` in `source`: another pile that is empty (king only, run not
      checked) or whose top card takes `card`, with a valid run. */
  predicate TableauRule(source: Pile, card: Card, target: Pile) {
    && card.faceUp
    && card in source.cards
    && target != source
    && if |target.cards| == 0 then card.rank == King
       else
         && StacksOn(target.cards[|target.cards| - 1], card)
         && IsValidSequence(source.cards[IndexOf(source.cards, card)..])
  }

  ghost predicate IsFirstFoundationTarget(s: GameState, source: Pile, card: Card, i: int) {
    0 <= i < |s.foundation| && FoundationRule(source, card, s.foundation[i])
    && forall j :: 0 <= j < i ==> !FoundationRule(source, card, s.foundation[j])
  }

  ghost predicate IsFirstTableauTarget(s: GameState, source: Pile, card: Card, i: int) {
    0 <= i < |s.tableau| && TableauRule(source, card, s.tableau[i])
    && forall j :: 0 <= j < i ==> !TableauRule(source, card, s.tableau[j])
  }

  ghost predicate HasFoundationTarget(s: GameState, source: Pile, card: Card) {
    exists i :: 0 <= i < |s.foundation| && FoundationRule(source, card, s.foundation[i])
  }

  ghost predicate HasTableauTarget(s: GameState, source: Pile, card: Card) {
    exists i :: 0 <= i < |s.tableau| && TableauRule(source, card, s.tableau[i])
  }

  // ---------------------------------------------------------------------
  // The move finder
  // ---------------------------------------------------------------------

  /** Foundation destination for `card`, which must be the source's last
      card; the source is never empty at the call site (Kotlin `last()`
      would throw). */
  function FindFoundationMove(s: GameState, card: Card, source: Pile): (r: Option<Move>)
    requires |source.cards| > 0
    ensures r.None? <==> !HasFoundationTarget(s, source, card)
    ensures r.Some? ==> r.value.source == source && r.value.card == card
    ensures r.Some? ==> exists i :: IsFirstFoundationTarget(s, source, card, i) && r.value.target == s.foundation[i]
  {
    if !card.faceUp || source.cards[|source.cards| - 1] != card then
      None
    else
      var target := FindFirst(s.foundation, FoundationFits(card));
      FoundationFitsIsRule(s, source, card);
      match target
      case None => None
      case Some(t) => Some(Move(source, t, card))
  }

  /** Tableau destination for the run that starts at `card` in `source`. */
  function FindTableauMove(s: GameState, card: Card, source: Pile): (r: Option<Move>)
    ensures r.None? <==> !HasTableauTarget(s, source, card)
    ensures r.Some? ==> r.value.source == source && r.value.card == card
    ensures r.Some? ==> exists i :: IsFirstTableauTarget(s, source, card, i) && r.value.target == s.tableau[i]
  {
    if !card.faceUp then None
    else
      var cardIndex := IndexOf(source.cards, card);
      if cardIndex == -1 then None
      else
        var wouldRevealFaceDownCard := cardIndex > 0 && !source.cards[cardIndex - 1].faceUp;
        var cardsToMove := source.cards[cardIndex..];
        var potentialTargets :=
          Filter(Filter(s.tableau, TableauPlaceable(source, card, cardsToMove[0])), RunAccepted(cardsToMove));
        TableauFiltersAreRule(s, source, card);
        // The Kotlin code gives the reveal case its own branch, with the same result.
        if wouldRevealFaceDownCard then
          if |potentialTargets| > 0 then Some(Move(source, potentialTargets[0], card)) else None
        else
          if |potentialTargets| > 0 then Some(Move(source, potentialTargets[0], card)) else None
  }

  /** The card the player double-clicked: located, restricted to the top
      card when it lies in the waste, then matched against the foundations
      before the tableau. */
  function FindValidMove(s: GameState, card: Card): (r: Option<Move>)
    ensures r.Some? ==> r.value.card == card && s.FindPileWithCard(card) == Some(r.value.source)
    ensures r.Some? ==> r.value.target in s.foundation || r.value.target in s.tableau
    ensures match s.FindPileWithCard(card)
      case None => r.None?
      case Some(src) =>
        if src.kind == Waste && src.TopCard() != Some(card) then r.None?
        else if HasFoundationTarget(s, src, card) then
          exists i :: IsFirstFoundationTarget(s, src, card, i) && r == Some(Move(src, s.foundation[i], card))
        else if HasTableauTarget(s, src, card) then
          exists i :: IsFirstTableauTarget(s, src, card, i) && r == Some(Move(src, s.tableau[i], card))
        else r.None?
  {
    match s.FindPileWithCard(card)
    case None => None
    case Some(source) =>
      if source.kind == Waste && source.TopCard() != Some(card) then None
      else
        var foundationMove := FindFoundationMove(s, card, source);
        if foundationMove.Some? then foundationMove
        else FindTableauMove(s, card, source)
  }

  // ---------------------------------------------------------------------
  // Bridges between the filters and the declarative rules
  // ---------------------------------------------------------------------

  lemma FoundationFitsIsRule(s: GameState, source: Pile, card: Card)
    requires card.faceUp && |source.cards| > 0 && source.cards[|source.cards| - 1] == card
    ensures forall p :: FoundationFits(card)(p) <==> FoundationRule(source, card, p)
    ensures forall i :: IsFirstWhere(s.foundation, i, FoundationFits(card)) <==> IsFirstFoundationTarget(s, source, card, i)
  {
  }

  /** Under the finder's guards, passing both filters is the tableau rule. */
  lemma TableauFilterPairIsRule(source: Pile, card: Card, t: Pile)
    requires card.faceUp && card in source.cards
    ensures var run := source.cards[IndexOf(source.cards, card)..];
      TableauPlaceable(source, card, run[0])(t) && RunAccepted(run)(t) <==> TableauRule(source, card, t)
  {
    var run := source.cards[IndexOf(source.cards, card)..];
    assert run[0] == card;
  }

  /** The columns the combined filter keeps are exactly the allowed ones. */
  lemma TableauFilterMembers(s: GameState, source: Pile, card: Card, pq: Pile -> bool)
    requires card.faceUp && card in source.cards
    requires pq == Both(TableauPlaceable(source, card, card), RunAccepted(source.cards[IndexOf(source.cards, card)..]))
    ensures forall t :: t in Filter(s.tableau, pq) <==> t in s.tableau && TableauRule(source, card, t)
  {
    FilterMembers(s.tableau, pq);
    forall t
      ensures pq(t) <==> TableauRule(source, card, t)
    {
      TableauFilterPairIsRule(source, card, t);
    }
  }

  lemma TableauFiltersAreRule(s: GameState, source: Pile, card: Card)
    requires card.faceUp && card in source.cards
    ensures var run := source.cards[IndexOf(source.cards, card)..];
      var both := Filter(Filter(s.tableau, TableauPlaceable(source, card, run[0])), RunAccepted(run));
      && (|both| == 0 <==> !HasTableauTarget(s, source, card))
      && (|both| > 0 ==> exists i :: IsFirstTableauTarget(s, source, card, i) && both[0] == s.tableau[i])
      && (forall t :: t in both <==> t in s.tableau && TableauRule(source, card, t))
  {
    var run := source.cards[IndexOf(source.cards, card)..];
    var p := TableauPlaceable(source, card, run[0]);
    var q := RunAccepted(run);
    var pq := Both(p, q);
    FilterFilter(s.tableau, p, q);
    FilterHead(s.tableau, pq);
    forall i | 0 <= i < |s.tableau|
      ensures pq(s.tableau[i]) <==> TableauRule(source, card, s.tableau[i])
    {
      TableauFilterPairIsRule(source, card, s.tableau[i]);
    }
    TableauFilterMembers(s, source, card, pq);
    if |Filter(s.tableau, pq)| > 0 {
      var i :| IsFirstWhere(s.tableau, i, pq) && Filter(s.tableau, pq)[0] == s.tableau[i];
      assert IsFirstTableauTarget(s, source, card, i);
    } else {
      assert !HasTableauTarget(s, source, card);
    }
  }

  // ---------------------------------------------------------------------
  // Consequences
  // ---------------------------------------------------------------------

  /** Recycling an exhausted stock keeps every card, orientation included. */
  lemma CycleKeepsCards(s: GameState)
    requires s.stock.IsEmpty()
    ensures multiset(CycleWasteToStock(s).AllCards()) == multiset(s.AllCards())
  {
    var r := CycleWasteToStock(s);
    AllCardsLayout(s);
    AllCardsLayout(r);
    ReverseInvolution(s.waste.cards);
    assert s.stock.cards == [];
  }

  /** After recycling, the stock's top card is the card that went into the
      waste first, so drawing replays the previous order; and the snapshot
      stays well typed. */
  lemma CycleRestoresDrawOrder(s: GameState)
    requires |s.waste.cards| > 0
    ensures CycleWasteToStock(s).stock.TopCard() == Some(s.waste.cards[0])
    ensures s.WellTyped() ==> CycleWasteToStock(s).WellTyped()
  {
  }

  /** Two runs join into a valid run exactly when each is valid and the
      second stacks on the last card of the first. */
  lemma {:induction false} ValidSequenceAppend(a: seq<Card>, b: seq<Card>)
    requires |a| > 0 && |b| > 0
    ensures IsValidSequence(a + b) <==>
      IsValidSequence(a) && IsValidSequence(b) && StacksOn(a[|a| - 1], b[0])
  {
    var ab := a + b;
    if IsValidSequence(a) && IsValidSequence(b) && StacksOn(a[|a| - 1], b[0]) {
      forall i | 0 <= i < |ab| - 1
        ensures StacksOn(ab[i], ab[i + 1])
      {
        if i < |a| - 1 {
          assert ab[i] == a[i] && ab[i + 1] == a[i + 1];
        } else if i >= |a| {
          assert ab[i] == b[i - |a|] && ab[i + 1] == b[i - |a| + 1];
        }
      }
    }
    if IsValidSequence(ab) {
      assert ab[..|a|] == a && ab[|a|..] == b;
      forall i | 0 <= i < |b| - 1
        ensures StacksOn(b[i], b[i + 1])
      {
        assert StacksOn(ab[|a| + i], ab[|a| + i + 1]);
      }
      assert StacksOn(ab[|a| - 1], ab[|a|]);
    }
  }

  /** A face-down card is never moved. */
  lemma FaceDownNeverMoves(s: GameState, card: Card)
    requires !card.faceUp
    ensures FindValidMove(s, card).None?
  {
  }

  /** A run of more than one card never goes to a foundation. */
  lemma RunsNeverGoToFoundation(s: GameState, card: Card, source: Pile)
    requires s.FindPileWithCard(card) == Some(source)
    requires source.cards[|source.cards| - 1] != card
    ensures FindValidMove(s, card).Some? ==>
      exists i :: IsFirstTableauTarget(s, source, card, i) && FindValidMove(s, card).value.target == s.tableau[i]
  {
    CoveredCardFindsNoFoundation(s, card, source);
    var r := FindValidMove(s, card);
    assert r == (if source.kind == Waste && source.TopCard() != Some(card) then None
                 else FindTableauMove(s, card, source));
  }

  lemma CoveredCardFindsNoFoundation(s: GameState, card: Card, source: Pile)
    requires |source.cards| > 0 && source.cards[|source.cards| - 1] != card
    ensures FindFoundationMove(s, card, source).None?
  {
    assert !HasFoundationTarget(s, source, card);
  }

  /** A tableau move onto a non-empty pile extends that pile's top into a
      valid run whenever its top card is face up. */
  lemma TableauMoveExtendsRun(s: GameState, card: Card)
    requires FindValidMove(s, card).Some?
    requires var m := FindValidMove(s, card).value;
      m.target in s.tableau && !HasFoundationTarget(s, m.source, card)
      && |m.target.cards| > 0 && m.target.cards[|m.target.cards| - 1].faceUp
    ensures var m := FindValidMove(s, card).value;
      var run := m.source.cards[IndexOf(m.source.cards, card)..];
      IsValidSequence([m.target.cards[|m.target.cards| - 1]] + run)
  {
    var m := FindValidMove(s, card).value;
    var src := m.source;
    var i :| IsFirstTableauTarget(s, src, card, i) && m.target == s.tableau[i];
    var run := src.cards[IndexOf(src.cards, card)..];
    var top := m.target.cards[|m.target.cards| - 1];
    assert run[0] == card;
    ValidSequenceAppend([top], run);
  }
}

=== FILE: game_state.dfy ===
/** The game snapshot (model/GameState.kt) and the helpers the engine calls
    on it. `findPileWithCard`, `isGameWon` and `updatePile` are defined
    elsewhere in the Kotlin project; they are assumed here as their call sites
    at GameLogic.kt:17-19 and GameViewModel.kt:37 and 70-72 use them. `AllPiles` is
    this model's own device: it fixes the search order that
    `findPileWithCard` and `updatePile` use. */
module GameStates {
  import opened Optional
  import opened Seqs
  import opened Cards
  import opened Piles

  /** Concatenation of the cards of `piles`, pile by pile. */
  function Flatten(piles: seq<Pile>): seq<Card> {
    if |piles| == 0 then [] else piles[0].cards + Flatten(piles[1..])
  }

  /** The test "this pile holds `card`" as a function value. */
  function Holds(card: Card): Pile -> bool {
    (q: Pile) => card in q.cards
  }

  /** `i` is the first pile in `piles` that holds `card`. */
  predicate IsFirstHolder(piles: seq<Pile>, i: int, card: Card) {
    0 <= i < |piles| && card in piles[i].cards
    && forall j :: 0 <= j < i ==> card !in piles[j].cards
  }

  datatype GameState = GameState(tableau: seq<Pile>, foundation: seq<Pile>, stock: Pile, waste: Pile) {

    /** Every pile, in the order `FindPileWithCard` and `UpdatePile` search
        them: tableau columns, foundations, then stock and waste. */
    function AllPiles(): (r: seq<Pile>)
      ensures |r| == |tableau| + |foundation| + 2
      ensures r[|tableau| + |foundation|] == stock && r[|tableau| + |foundation| + 1] == waste
    {
      tableau + foundation + [stock, waste]
    }

    /** Every card on the table. */
    function AllCards(): seq<Card> {
      Flatten(AllPiles())
    }

    /** Each pile's type tag matches its slot. */
    predicate WellTyped() {
      && (forall i :: 0 <= i < |tableau| ==> tableau[i].kind == Tableau)
      && (forall i :: 0 <= i < |foundation| ==> foundation[i].kind == Foundation)
      && stock.kind == Stock
      && waste.kind == Waste
    }

    /** The first pile, in search order, whose cards include `card` (by
        value, so orientation counts). */
    function FindPileWithCard(card: Card): (r: Option<Pile>)
      ensures r.None? <==> forall i :: 0 <= i < |AllPiles()| ==> card !in AllPiles()[i].cards
      ensures r.Some? ==> exists i :: IsFirstHolder(AllPiles(), i, card) && AllPiles()[i] == r.value
    {
      var r := FindFirst(AllPiles(), Holds(card));
      if r.Some? then
        HolderFromFirst(AllPiles(), card, r.value);
        r
      else
        r
    }

    /** Won when there are four foundations holding thirteen cards each. Only
        the counts are checked, not which cards they are. */
    predicate IsGameWon() {
      |foundation| == 4 && forall i :: 0 <= i < |foundation| ==> foundation[i].Size() == 13
    }

    /** Replaces the first pile equal to `oldPile` (search order) by `newPile`; a
        state without such a pile is returned unchanged. */
    function UpdatePile(oldPile: Pile, newPile: Pile): (r: GameState)
      ensures |r.tableau| == |tableau| && |r.foundation| == |foundation|
      ensures oldPile !in AllPiles() ==> r == this
    {
      var ti := IndexOf(tableau, oldPile);
      if ti >= 0 then
        this.(tableau := tableau[ti := newPile])
      else
        var fi := IndexOf(foundation, oldPile);
        if fi >= 0 then
          this.(foundation := foundation[fi := newPile])
        else if stock == oldPile then
          this.(stock := newPile)
        else if waste == oldPile then
          this.(waste := newPile)
        else
          this
    }
  }

  /** `UpdatePile` rewrites exactly one slot of the search order: the first
      one holding a pile equal to `oldPile`. */
  lemma UpdatePileReplacesFirst(s: GameState, oldPile: Pile, newPile: Pile)
    requires oldPile in s.AllPiles()
    ensures s.UpdatePile(oldPile, newPile).AllPiles() == s.AllPiles()[IndexOf(s.AllPiles(), oldPile) := newPile]
  {
    if oldPile in s.tableau {
      ReplacesInTableau(s, oldPile, newPile);
    } else if oldPile in s.foundation {
      ReplacesInFoundation(s, oldPile, newPile);
    } else {
      ReplacesStockOrWaste(s, oldPile, newPile);
    }
  }

  /** Where the first occurrence of a pile lies in the search order. */
  lemma AllPilesIndex(s: GameState, p: Pile)
    ensures p in s.tableau ==> IndexOf(s.AllPiles(), p) == IndexOf(s.tableau, p)
    ensures p !in s.tableau && p in s.foundation ==>
              IndexOf(s.AllPiles(), p) == |s.tableau| + IndexOf(s.foundation, p)
    ensures p !in s.tableau && p !in s.foundation && (p == s.stock || p == s.waste) ==>
              IndexOf(s.AllPiles(), p) == |s.tableau| + |s.foundation| + IndexOf([s.stock, s.waste], p)
  {
    var t, f, rest := s.tableau, s.foundation, [s.stock, s.waste];
    IndexOfAppend(t, f, p);
    IndexOfAppend(t + f, rest, p);
  }

  lemma ReplacesInTableau(s: GameState, oldPile: Pile, newPile: Pile)
    requires oldPile in s.tableau
    ensures s.UpdatePile(oldPile, newPile).AllPiles() == s.AllPiles()[IndexOf(s.AllPiles(), oldPile) := newPile]
  {
    AllPilesIndex(s, oldPile);
    var t, f, rest := s.tableau, s.foundation, [s.stock, s.waste];
    var k := IndexOf(t, oldPile);
    assert s.UpdatePile(oldPile, newPile).tableau == t[k := newPile];
    UpdateAppend(t, f, k, newPile);
    UpdateAppend(t + f, rest, k, newPile);
  }

  lemma ReplacesInFoundation(s: GameState, oldPile: Pile, newPile: Pile)
    requires oldPile !in s.tableau && oldPile in s.foundation
    ensures s.UpdatePile(oldPile, newPile).AllPiles() == s.AllPiles()[IndexOf(s.AllPiles(), oldPile) := newPile]
  {
    AllPilesIndex(s, oldPile);
    var t, f, rest := s.tableau, s.foundation, [s.stock, s.waste];
    var j := IndexOf(f, oldPile);
    assert s.UpdatePile(oldPile, newPile).foundation == f[j := newPile];
    UpdateAppend(t, f, |t| + j, newPile);
    UpdateAppend(t + f, rest, |t| + j, newPile);
  }

  lemma ReplacesStockOrWaste(s: GameState, oldPile: Pile, newPile: Pile)
    requires oldPile !in s.tableau && oldPile !in s.foundation
    requires oldPile == s.stock || oldPile == s.waste
    ensures s.UpdatePile(oldPile, newPile).AllPiles() == s.AllPiles()[IndexOf(s.AllPiles(), oldPile) := newPile]
  {
    AllPilesIndex(s, oldPile);
    var rest := [s.stock, s.waste];
    if s.stock == oldPile {
      assert IndexOf(rest, oldPile) == 0;
      ReplacesAtOffset(s, 0, newPile);
      assert s.UpdatePile(oldPile, newPile) == s.(stock := newPile);
    } else {
      assert IndexOf(rest, oldPile) == 1;
      ReplacesAtOffset(s, 1, newPile);
      assert s.UpdatePile(oldPile, newPile) == s.(waste := newPile);
    }
  }

  /** Overwriting the stock (offset 0) or the waste (offset 1) slot of the
      search order. */
  lemma ReplacesAtOffset(s: GameState, j: int, newPile: Pile)
    requires j == 0 || j == 1
    ensures var k := |s.tableau| + |s.foundation| + j;
      s.AllPiles()[k := newPile]
        == (if j == 0 then s.(stock := newPile) else s.(waste := newPile)).AllPiles()
  {
    var t, f, rest := s.tableau, s.foundation, [s.stock, s.waste];
    UpdateAppend(t + f, rest, |t| + |f| + j, newPile);
    if j == 0 {
      assert rest[0 := newPile] == [newPile, s.waste];
    } else {
      assert rest[1 := newPile] == [s.stock, newPile];
    }
  }

  /** Turns the generic first-match fact into `IsFirstHolder`. */
  lemma HolderFromFirst(piles: seq<Pile>, card: Card, p: Pile)
    requires exists i :: IsFirstWhere(piles, i, Holds(card)) && piles[i] == p
    ensures exists i :: IsFirstHolder(piles, i, card) && piles[i] == p
  {
    var i :| IsFirstWhere(piles, i, Holds(card)) && piles[i] == p;
    assert IsFirstHolder(piles, i, card);
  }

  /** Swapping one pile changes the card multiset by exactly that pile:
      what leaves plus what remains equals what was there plus what arrives. */
  lemma {:induction false} FlattenUpdate(piles: seq<Pile>, k: nat, q: Pile)
    requires k < |piles|
    ensures multiset(Flatten(piles[k := q])) + multiset(piles[k].cards)
         == multiset(Flatten(piles)) + multiset(q.cards)
  {
    var updated := piles[k := q];
    if k == 0 {
      assert updated[1..] == piles[1..];
      assert Flatten(updated) == q.cards + Flatten(piles[1..]);
      assert Flatten(piles) == piles[0].cards + Flatten(piles[1..]);
    } else {
      var tail := piles[1..];
      assert updated[1..] == tail[k - 1 := q];
      assert tail[k - 1] == piles[k];
      FlattenUpdate(tail, k - 1, q);
      var mHead := multiset(piles[0].cards);
      var mTail := multiset(Flatten(tail));
      var mTail' := multiset(Flatten(tail[k - 1 := q]));
      assert mTail' + multiset(piles[k].cards) == mTail + multiset(q.cards);
      assert Flatten(updated) == piles[0].cards + Flatten(tail[k - 1 := q]);
      assert multiset(Flatten(updated)) == mHead + mTail';
      assert Flatten(piles) == piles[0].cards + Flatten(tail);
      assert multiset(Flatten(piles)) == mHead + mTail;
      var mOld, mNew := multiset(piles[k].cards), multiset(q.cards);
      calc {
        multiset(Flatten(updated)) + mOld;
        (mHead + mTail') + mOld;
        mHead + (mTail' + mOld);
        mHead + (mTail + mNew);
        (mHead + mTail) + mNew;
        multiset(Flatten(piles)) + mNew;
      }
    }
  }

  /** Flattening distributes over concatenation of pile lists. */
  lemma {:induction false} FlattenAppend(a: seq<Pile>, b: seq<Pile>)
    ensures Flatten(a + b) == Flatten(a) + Flatten(b)
  {
    if |a| > 0 {
      assert (a + b)[0] == a[0];
      assert (a + b)[1..] == a[1..] + b;
      FlattenAppend(a[1..], b);
    } else {
      assert a + b == b;
    }
  }

  /** The cards of a snapshot: tableau and foundation cards, then the stock,
      then the waste. */
  lemma AllCardsLayout(s: GameState)
    ensures s.AllCards() == Flatten(s.tableau + s.foundation) + s.stock.cards + s.waste.cards
  {
    FlattenAppend(s.tableau + s.foundation, [s.stock, s.waste]);
    assert [s.stock, s.waste][1..] == [s.waste];
    assert Flatten([s.waste]) == s.waste.cards + Flatten([]);
  }

  /** `UpdatePile` trades the old pile's cards for the new pile's cards. */
  lemma UpdatePileCards(s: GameState, oldPile: Pile, newPile: Pile)
    requires oldPile in s.AllPiles()
    ensures multiset(s.UpdatePile(oldPile, newPile).AllCards()) + multiset(oldPile.cards)
         == multiset(s.AllCards()) + multiset(newPile.cards)
  {
    UpdatePileReplacesFirst(s, oldPile, newPile);
    FlattenUpdate(s.AllPiles(), IndexOf(s.AllPiles(), oldPile), newPile);
  }

  /** A snapshot is determined by its piles in search order once the
      numbers of tableau and foundation piles are fixed. */
  lemma AllPilesDetermineState(a: GameState, b: GameState)
    requires |a.tableau| == |b.tableau| && |a.foundation| == |b.foundation|
    requires a.AllPiles() == b.AllPiles()
    ensures a == b
  {
    var nt, nf := |a.tableau|, |a.foundation|;
    assert a.tableau == a.AllPiles()[..nt] && b.tableau == b.AllPiles()[..nt];
    assert a.foundation == a.AllPiles()[nt..nt + nf] && b.foundation == b.AllPiles()[nt..nt + nf];
  }

  /** Replacing a pile by one of the same type keeps every slot's type. */
  lemma UpdatePileWellTyped(s: GameState, oldPile: Pile, newPile: Pile)
    requires s.WellTyped() && oldPile.kind == newPile.kind
    ensures s.UpdatePile(oldPile, newPile).WellTyped()
  {
  }

  /** A pile that differs from `oldPile` keeps its position and value. */
  lemma UpdatePileKeepsOthers(s: GameState, oldPile: Pile, newPile: Pile, i: int)
    requires 0 <= i < |s.AllPiles()| && s.AllPiles()[i] != oldPile
    ensures s.UpdatePile(oldPile, newPile).AllPiles()[i] == s.AllPiles()[i]
  {
  }

  /** `AllPiles` lists every pile once, in search order: the tableau
      columns, then the foundations, then the stock and the waste. */
  lemma AllPilesInSearchOrder(s: GameState)
    ensures |s.AllPiles()| == |s.tableau| + |s.foundation| + 2
    ensures forall i :: 0 <= i < |s.tableau| ==> s.AllPiles()[i] == s.tableau[i]
    ensures forall j :: 0 <= j < |s.foundation| ==> s.AllPiles()[|s.tableau| + j] == s.foundation[j]
    ensures s.AllPiles()[|s.tableau| + |s.foundation|] == s.stock
    ensures s.AllPiles()[|s.tableau| + |s.foundation| + 1] == s.waste
  {
  }

  /** Piles of equal size `k` flatten to `k` cards per pile. */
  lemma {:induction false} FlattenUniformLength(piles: seq<Pile>, k: nat)
    requires forall i :: 0 <= i < |piles| ==> piles[i].Size() == k
    ensures |Flatten(piles)| == |piles| * k
  {
    if |piles| > 0 {
      FlattenUniformLength(piles[1..], k);
    }
  }

  /** A won board has four foundations of thirteen cards each, 52 cards
      counted. On a board that holds 52 cards in all, winning therefore
      means every card is on a foundation and every other pile is empty. */
  lemma WonMeansFullFoundations(s: GameState)
    ensures s.IsGameWon() <==> |s.foundation| == 4 && forall p :: p in s.foundation ==> p.Size() == 13
    ensures s.IsGameWon() ==> |Flatten(s.foundation)| == 52
    ensures s.IsGameWon() && |s.AllCards()| == 52 ==>
      && multiset(Flatten(s.foundation)) == multiset(s.AllCards())
      && Flatten(s.tableau) == [] && s.stock.IsEmpty() && s.waste.IsEmpty()
  {
    if s.IsGameWon() {
      FlattenUniformLength(s.foundation, 13);
      FlattenAppend(s.tableau + s.foundation, [s.stock, s.waste]);
      FlattenAppend(s.tableau, s.foundation);
      assert [s.stock, s.waste][1..] == [s.waste];
      assert [s.waste][1..] == [];
      assert Flatten([s.waste]) == s.waste.cards + Flatten([]);
      assert Flatten([s.stock, s.waste]) == s.stock.cards + s.waste.cards;
      assert s.AllCards() == Flatten(s.tableau) + Flatten(s.foundation) + s.stock.cards + s.waste.cards;
    }
  }
}

=== FILE: game_ui_state.dfy ===
/** The session record the view model keeps (ui/GameUiState.kt): current
    snapshot, move counter, elapsed time, timer flag and undo history. */
module UiStates {
  import opened Optional
  import opened GameStates

  /** `elapsedTime` stands for the Kotlin `Duration`, as a plain count. */
  datatype GameUiState = GameUiState(
    gameState: GameState,
    moveCount: int,
    elapsedTime: int,
    isTimerRunning: bool,
    undoStack: seq<GameState>)
  {
    predicate CanUndo()
      ensures CanUndo() <==> undoStack != []
    {
      |undoStack| > 0
    }

    /** Records `state` as the most recent history entry. */
    function AddToUndoStack(state: GameState): (r: GameUiState)
      ensures r.CanUndo()
      ensures |r.undoStack| == |undoStack| + 1
      ensures r.undoStack[..|undoStack|] == undoStack && r.undoStack[|undoStack|] == state
      ensures r.(undoStack := undoStack) == this
    {
      this.(undoStack := undoStack + [state])
    }

    /** Steps back to the most recent history entry; `None` without
        history. */
    function Undo(): (r: Option<GameUiState>)
      ensures r.None? <==> !CanUndo()
      ensures r.Some? ==> r.value.undoStack + [r.value.gameState] == undoStack
      ensures r.Some? ==> r.value.moveCount + 1 == moveCount
      ensures r.Some? ==> r.value.elapsedTime == elapsedTime && r.value.isTimerRunning == isTimerRunning
    {
      if !CanUndo() then None
      else
        assert undoStack == undoStack[..|undoStack| - 1] + [undoStack[|undoStack| - 1]];
        Some(this.(
          gameState := undoStack[|undoStack| - 1],
          undoStack := undoStack[..|undoStack| - 1],
          moveCount := moveCount - 1))
    }

    /** Counts one move and starts the timer. */
    function IncrementMoves(): (r: GameUiState)
      ensures r.moveCount == moveCount + 1 && r.isTimerRunning
      ensures r.(moveCount := moveCount, isTimerRunning := isTimerRunning) == this
    {
      this.(moveCount := moveCount + 1, isTimerRunning := true)
    }

    function UpdateTimer(newTime: int): (r: GameUiState)
      ensures r.elapsedTime == newTime
      ensures r.(elapsedTime := elapsedTime) == this
    {
      this.(elapsedTime := newTime)
    }

    /** A fresh session on `newGameState`. */
    function ResetGame(newGameState: GameState): (r: GameUiState)
      ensures r.gameState == newGameState
      ensures r.moveCount == 0 && !r.CanUndo()
      ensures !r.isTimerRunning && r.elapsedTime == 0
      ensures Consistent(r)
    {
      Fresh(newGameState)
    }
  }

  /** The Kotlin constructor with its defaults. */
  function Fresh(gameState: GameState): GameUiState {
    GameUiState(gameState, 0, 0, false, [])
  }

  /** Every counted move left exactly one history entry. */
  predicate Consistent(ui: GameUiState) {
    ui.moveCount == |ui.undoStack|
  }

  /** Pushing a snapshot and undoing brings that snapshot back with the
      original history, one count lower. */
  lemma AddThenUndo(ui: GameUiState, state: GameState)
    ensures ui.AddToUndoStack(state).Undo()
         == Some(ui.(gameState := state, moveCount := ui.moveCount - 1))
  {
    assert (ui.undoStack + [state])[..|ui.undoStack|] == ui.undoStack;
  }

  /** The shape every recorded view-model step takes: push the current
      snapshot, install the next one, count the move. */
  function Record(ui: GameUiState, next: GameState): (r: GameUiState)
    ensures r.gameState == next && r.undoStack == ui.undoStack + [ui.gameState]
    ensures r.moveCount == ui.moveCount + 1 && r.isTimerRunning && r.elapsedTime == ui.elapsedTime
  {
    ui.AddToUndoStack(ui.gameState).(gameState := next).IncrementMoves()
  }

  /** A recorded step keeps history and counter in step and is undone by
      `Undo`, which restores everything except that the timer now runs. */
  lemma RecordThenUndo(ui: GameUiState, next: GameState)
    ensures Consistent(ui) ==> Consistent(Record(ui, next))
    ensures Record(ui, next).Undo() == Some(ui.(isTimerRunning := true))
  {
    AddThenUndo(ui, ui.gameState);
  }

  /** Undoing keeps history and counter in step. */
  lemma UndoKeepsConsistent(ui: GameUiState)
    requires Consistent(ui) && ui.CanUndo()
    ensures Consistent(ui.Undo().value)
  {
  }
}

=== FILE: game_view_model.dfy ===
/** The view model's event handlers (ui/GameViewModel.kt) as pure steps
    from one session record to the next. The timer coroutine is not
    modelled. */
module ViewModel {
  import opened Optional
  import opened Seqs
  import opened Cards
  import opened Piles
  import opened GameStates
  import opened GameLogic
  import opened UiStates

  /** The board after moving the run that starts at `card` from `from` onto
      `to`: both piles are looked up by value in the snapshot. */
  function ApplyMove(s: GameState, from: Pile, to: Pile, card: Card): (r: GameState)
    requires card in from.cards
    ensures |r.tableau| == |s.tableau| && |r.foundation| == |s.foundation|
    ensures forall i :: 0 <= i < |s.AllPiles()| && s.AllPiles()[i] != from && s.AllPiles()[i] != to
              ==> r.AllPiles()[i] == s.AllPiles()[i]
  {
    var cardIndex := IndexOf(from.cards, card);
    var cardsToMove := from.cards[cardIndex..];
    var newFromPile := from.RemoveTopCards(|cardsToMove|).value.1;
    var newToPile := to.AddCards(cardsToMove);
    var mid := s.UpdatePile(from, newFromPile);
    forall i | 0 <= i < |s.AllPiles()| && s.AllPiles()[i] != from && s.AllPiles()[i] != to
      ensures mid.UpdatePile(to, newToPile).AllPiles()[i] == s.AllPiles()[i]
    {
      UpdatePileKeepsOthers(s, from, newFromPile, i);
      UpdatePileKeepsOthers(mid, to, newToPile, i);
    }
    mid.UpdatePile(to, newToPile)
  }

  /** Kotlin `makeMove`: nothing happens when `card` is not in `from`;
      otherwise the run from `card` up is moved and the step recorded. */
  function MakeMove(ui: GameUiState, from: Pile, to: Pile, card: Card): (r: GameUiState)
    ensures card !in from.cards ==> r == ui
    ensures card in from.cards ==> r == Record(ui, ApplyMove(ui.gameState, from, to, card))
    ensures card in from.cards ==> r.undoStack == ui.undoStack + [ui.gameState] && r.moveCount == ui.moveCount + 1
  {
    var cardIndex := IndexOf(from.cards, card);
    if cardIndex == -1 then ui
    else Record(ui, ApplyMove(ui.gameState, from, to, card))
  }

  /** Kotlin `onStockClick`: recycle when the stock is empty, otherwise
      draw its top card face up onto the waste; either way a recorded step. */
  function OnStockClick(ui: GameUiState): (r: GameUiState)
    ensures r.undoStack == ui.undoStack + [ui.gameState] && r.moveCount == ui.moveCount + 1
    ensures r.isTimerRunning && r.elapsedTime == ui.elapsedTime
    ensures ui.gameState.stock.IsEmpty() ==> r.gameState == CycleWasteToStock(ui.gameState)
  {
    var oldState := ui.gameState;
    var stock := oldState.stock;
    var waste := oldState.waste;
    if stock.IsEmpty() then
      Record(ui, CycleWasteToStock(oldState))
    else
      var (card, newStock) := stock.RemoveTopCard().value;
      var newWaste := waste.AddCard(card.(faceUp := true));
      var newState := oldState.UpdatePile(stock, newStock).UpdatePile(waste, newWaste);
      Record(ui, newState)
  }

  /** Kotlin `undo`: the session's `Undo`, or no change without history. */
  function Undo(ui: GameUiState): (r: GameUiState)
    ensures !ui.CanUndo() ==> r == ui
    ensures ui.CanUndo() ==> r.gameState == ui.undoStack[|ui.undoStack| - 1]
    ensures ui.CanUndo() ==> r.undoStack + [r.gameState] == ui.undoStack && r.moveCount == ui.moveCount - 1
  {
    match ui.Undo()
    case Some(previous) => previous
    case None => ui
  }

  /** The body of the `for (foundation in currentState.foundation)` loop in
      `onCardDoubleClick`, one iteration per foundation pile: each pass asks
      for the move again and returns early if it targets a foundation. */
  function FoundationPass(ui: GameUiState, card: Card, remaining: seq<Pile>): (r: Option<GameUiState>)
    ensures r.Some? <==> |remaining| > 0 && FindValidMove(ui.gameState, card).Some?
                         && FindValidMove(ui.gameState, card).value.target.kind == Foundation
    ensures r.Some? ==> var m := FindValidMove(ui.gameState, card).value;
                        r.value == MakeMove(ui, m.source, m.target, m.card)
    decreases |remaining|
  {
    if |remaining| == 0 then None
    else
      match FindValidMove(ui.gameState, card)
      case Some(m) =>
        if m.target.kind == Foundation then Some(MakeMove(ui, m.source, m.target, m.card))
        else FoundationPass(ui, card, remaining[1..])
      case None => FoundationPass(ui, card, remaining[1..])
  }

  /** Kotlin `onCardDoubleClick`: whatever the loop structure, the step
      applies exactly the move `FindValidMove` reports, or none. */
  function OnCardDoubleClick(ui: GameUiState, card: Card): (r: GameUiState)
    ensures r == match FindValidMove(ui.gameState, card)
                 case Some(m) => MakeMove(ui, m.source, m.target, m.card)
                 case None => ui
  {
    var currentState := ui.gameState;
    match currentState.FindPileWithCard(card)
    case None => ui
    case Some(_) =>
      match FoundationPass(ui, card, currentState.foundation)
      case Some(next) => next
      case None =>
        match FindValidMove(currentState, card)
        case Some(m) => MakeMove(ui, m.source, m.target, m.card)
        case None => ui
  }
}

=== FILE: game_view_model_facts.dfy ===
/** What the view-model steps guarantee about the board and the session. */
module ViewModelFacts {
  import opened Optional
  import opened Seqs
  import opened Cards
  import opened Piles
  import opened GameStates
  import opened GameLogic
  import opened UiStates
  import opened ViewModel

  /** The run split off the source: the source keeps the cards below
      `card`, the run is `card` and everything above it. */
  lemma RunSplit(from: Pile, card: Card)
    requires card in from.cards
    ensures var i := IndexOf(from.cards, card);
      var split := from.RemoveTopCards(|from.cards[i..]|);
      && split.Ok?
      && split.value.0 == from.cards[i..]
      && split.value.1 == Pile(from.kind, from.cards[..i])
      && multiset(from.cards[..i]) + multiset(from.cards[i..]) == multiset(from.cards)
  {
    var i := IndexOf(from.cards, card);
    var split := from.RemoveTopCards(|from.cards[i..]|);
    assert split.value.1.cards + split.value.0 == from.cards;
    assert from.cards == from.cards[..i] + from.cards[i..];
  }

  /** `ApplyMove` as the two `UpdatePile` calls it makes. */
  lemma ApplyMoveUnfold(s: GameState, from: Pile, to: Pile, card: Card)
    requires card in from.cards
    ensures var i := IndexOf(from.cards, card);
      ApplyMove(s, from, to, card)
        == s.UpdatePile(from, Pile(from.kind, from.cards[..i])).UpdatePile(to, to.AddCards(from.cards[i..]))
  {
    RunSplit(from, card);
  }

  /** Moving a run between two different piles of the snapshot neither
      creates nor loses a card, and turns none over. */
  lemma ApplyMoveKeepsCards(s: GameState, from: Pile, to: Pile, card: Card)
    requires card in from.cards
    requires from in s.AllPiles() && to in s.AllPiles() && from != to
    ensures multiset(ApplyMove(s, from, to, card).AllCards()) == multiset(s.AllCards())
  {
    var i := IndexOf(from.cards, card);
    var run := from.cards[i..];
    RunSplit(from, card);
    var newFrom := Pile(from.kind, from.cards[..i]);
    var mid := s.UpdatePile(from, newFrom);
    ApplyMoveUnfold(s, from, to, card);
    OtherPileSurvives(s, from, newFrom, to);
    MultisetAfterTwoUpdates(s, mid, mid.UpdatePile(to, to.AddCards(run)), from, newFrom, to, to.AddCards(run), run);
  }

  /** A pile other than the one replaced is still on the board afterwards. */
  lemma OtherPileSurvives(s: GameState, oldPile: Pile, newPile: Pile, p: Pile)
    requires p in s.AllPiles() && p != oldPile
    ensures p in s.UpdatePile(oldPile, newPile).AllPiles()
  {
    var j := IndexOf(s.AllPiles(), p);
    UpdatePileKeepsOthers(s, oldPile, newPile, j);
  }

  /** The multiset bookkeeping behind `ApplyMoveKeepsCards`. */
  lemma MultisetAfterTwoUpdates(s: GameState, mid: GameState, r: GameState,
                                from: Pile, newFrom: Pile, to: Pile, newTo: Pile, run: seq<Card>)
    requires from in s.AllPiles() && mid == s.UpdatePile(from, newFrom)
    requires to in mid.AllPiles() && r == mid.UpdatePile(to, newTo)
    requires multiset(newFrom.cards) + multiset(run) == multiset(from.cards)
    requires newTo.cards == to.cards + run
    ensures multiset(r.AllCards()) == multiset(s.AllCards())
  {
    UpdatePileCards(s, from, newFrom);
    UpdatePileCards(mid, to, newTo);
    Cancel(multiset(s.AllCards()), multiset(mid.AllCards()), multiset(r.AllCards()),
           multiset(from.cards), multiset(to.cards), multiset(newFrom.cards), multiset(run));
  }

  /** The multiset arithmetic of a move: the first update trades the
      source's cards for the kept ones, the second adds the run. */
  lemma Cancel(M: multiset<Card>, M1: multiset<Card>, M2: multiset<Card>,
               mFrom: multiset<Card>, mTo: multiset<Card>, mKeep: multiset<Card>, mRun: multiset<Card>)
    requires M1 + mFrom == M + mKeep
    requires M2 + mTo == M1 + (mTo + mRun)
    requires mKeep + mRun == mFrom
    ensures M2 == M
  {
    forall c: Card
      ensures M2[c] == M[c]
    {
      assert (M1 + mFrom)[c] == (M + mKeep)[c];
      assert (M2 + mTo)[c] == (M1 + (mTo + mRun))[c];
      assert (mKeep + mRun)[c] == mFrom[c];
    }
  }

  /** Unless the emptied-out source equals the target by value and the
      target lies after the source, the move rewrites exactly the source slot
      and the target slot: the source keeps the cards below `card` and the
      target gets the run on top, in order. */
  lemma ApplyMovePlacesRun(s: GameState, from: Pile, to: Pile, card: Card)
    requires card in from.cards
    requires from in s.AllPiles() && to in s.AllPiles() && from != to
    requires Pile(from.kind, from.cards[..IndexOf(from.cards, card)]) != to
             || IndexOf(s.AllPiles(), to) < IndexOf(s.AllPiles(), from)
    ensures var i := IndexOf(from.cards, card);
      var piles := s.AllPiles();
      ApplyMove(s, from, to, card).AllPiles()
        == piles[IndexOf(piles, from) := Pile(from.kind, from.cards[..i])]
                [IndexOf(piles, to) := Pile(to.kind, to.cards + from.cards[i..])]
  {
    var i := IndexOf(from.cards, card);
    var piles := s.AllPiles();
    RunSplit(from, card);
    var newFrom := Pile(from.kind, from.cards[..i]);
    var newTo := to.AddCards(from.cards[i..]);
    var mid := s.UpdatePile(from, newFrom);
    UpdatePileReplacesFirst(s, from, newFrom);
    IndexOfUpdateKeeps(piles, IndexOf(piles, from), newFrom, to);
    assert to in mid.AllPiles();
    UpdatePileReplacesFirst(mid, to, newTo);
  }

  /** A double-click step between two distinct piles, seen from the session:
      the source keeps the cards below `card`, the target gets the run on
      top, the old board goes onto the history and the count rises by one. */
  lemma MakeMoveMovesRun(ui: GameUiState, from: Pile, to: Pile, card: Card)
    requires card in from.cards
    requires from in ui.gameState.AllPiles() && to in ui.gameState.AllPiles() && from != to
    requires Pile(from.kind, from.cards[..IndexOf(from.cards, card)]) != to
             || IndexOf(ui.gameState.AllPiles(), to) < IndexOf(ui.gameState.AllPiles(), from)
    ensures var i := IndexOf(from.cards, card);
      var piles := ui.gameState.AllPiles();
      var r := MakeMove(ui, from, to, card);
      && r.gameState.AllPiles()
           == piles[IndexOf(piles, from) := Pile(from.kind, from.cards[..i])]
                   [IndexOf(piles, to) := Pile(to.kind, to.cards + from.cards[i..])]
      && r.undoStack == ui.undoStack + [ui.gameState]
      && r.moveCount == ui.moveCount + 1
  {
    ApplyMovePlacesRun(ui.gameState, from, to, card);
  }

  /** A quirk of comparing piles by value: moving a whole column onto an
      empty column further along leaves the board exactly as it was, since
      the emptied source is the first pile equal to the target. */
  lemma WholeColumnToLaterEmptyColumn(s: GameState, from: Pile, to: Pile, card: Card)
    requires |from.cards| > 0 && from.cards[0] == card
    requires to == Pile(from.kind, [])
    requires from in s.AllPiles() && to in s.AllPiles()
    requires IndexOf(s.AllPiles(), from) < IndexOf(s.AllPiles(), to)
    ensures ApplyMove(s, from, to, card) == s
  {
    WholeColumnUpdates(s, from, to, card);
    UpdateThenRestore(s, from, to);
  }

  /** Moving a whole column onto an empty pile of its type amounts to
      writing the empty pile over the source, then the source over the
      first pile equal to the empty one. */
  lemma WholeColumnUpdates(s: GameState, from: Pile, to: Pile, card: Card)
    requires |from.cards| > 0 && from.cards[0] == card
    requires to == Pile(from.kind, [])
    ensures ApplyMove(s, from, to, card) == s.UpdatePile(from, to).UpdatePile(to, from)
  {
    RunSplit(from, card);
    assert from.cards[0..] == from.cards;
    assert to.AddCards(from.cards) == from;
  }

  /** Writing `to` over an earlier `from` and then `from` back over the
      first `to` restores the board. */
  lemma UpdateThenRestore(s: GameState, from: Pile, to: Pile)
    requires from in s.AllPiles() && to in s.AllPiles()
    requires IndexOf(s.AllPiles(), from) < IndexOf(s.AllPiles(), to)
    ensures s.UpdatePile(from, to).UpdatePile(to, from) == s
  {
    var piles := s.AllPiles();
    var k := IndexOf(piles, from);
    var mid := s.UpdatePile(from, to);
    TargetTakesSourceSlot(s, from, to);
    UpdatePileReplacesFirst(mid, to, from);
    assert mid.AllPiles()[k := from] == piles;
    AllPilesDetermineState(mid.UpdatePile(to, from), s);
  }

  /** After `to` is written over an earlier `from`, the first `to` sits in
      the slot `from` held. */
  lemma TargetTakesSourceSlot(s: GameState, from: Pile, to: Pile)
    requires from in s.AllPiles() && to in s.AllPiles()
    requires IndexOf(s.AllPiles(), from) < IndexOf(s.AllPiles(), to)
    ensures var k := IndexOf(s.AllPiles(), from);
      && s.UpdatePile(from, to).AllPiles() == s.AllPiles()[k := to]
      && IndexOf(s.UpdatePile(from, to).AllPiles(), to) == k
  {
    var piles := s.AllPiles();
    var k, m := IndexOf(piles, from), IndexOf(piles, to);
    UpdatePileReplacesFirst(s, from, to);
    assert piles[..k] == piles[..m][..k];
    IndexOfPlaced(piles, k, to);
  }

  /** Drawing from a non-empty stock of a well-typed snapshot: the stock
      loses its top card, the waste gains that card turned face up, and the
      tableau and foundations are untouched. */
  lemma StockClickDraws(ui: GameUiState)
    requires ui.gameState.WellTyped() && !ui.gameState.stock.IsEmpty()
    ensures var s, r := ui.gameState, OnStockClick(ui).gameState;
      var n := |s.stock.cards|;
      && r.tableau == s.tableau && r.foundation == s.foundation
      && r.stock == Pile(Stock, s.stock.cards[..n - 1])
      && r.waste == Pile(Waste, s.waste.cards + [s.stock.cards[n - 1].(faceUp := true)])
  {
    var s := ui.gameState;
    var n := |s.stock.cards|;
    assert s.stock !in s.tableau && s.stock !in s.foundation;
    assert s.waste !in s.tableau && s.waste !in s.foundation;
    var (card, newStock) := s.stock.RemoveTopCard().value;
    assert newStock.cards + [card] == s.stock.cards;
    assert newStock.cards == s.stock.cards[..n - 1];
    var mid := s.UpdatePile(s.stock, newStock);
    assert mid == s.(stock := newStock);
  }

  /** Every snapshot of the session, current and recorded, is well typed. */
  ghost predicate SessionWellTyped(ui: GameUiState) {
    ui.gameState.WellTyped() && forall i :: 0 <= i < |ui.undoStack| ==> ui.undoStack[i].WellTyped()
  }

  /** `ApplyMove` keeps each slot's type. */
  lemma ApplyMoveWellTyped(s: GameState, from: Pile, to: Pile, card: Card)
    requires s.WellTyped() && card in from.cards
    ensures ApplyMove(s, from, to, card).WellTyped()
  {
    var i := IndexOf(from.cards, card);
    ApplyMoveUnfold(s, from, to, card);
    var newFrom := Pile(from.kind, from.cards[..i]);
    UpdatePileWellTyped(s, from, newFrom);
    UpdatePileWellTyped(s.UpdatePile(from, newFrom), to, to.AddCards(from.cards[i..]));
  }

  /** The events a player can raise, and the step each one takes. */
  datatype Event = DoubleClick(card: Card) | StockClick | UndoClick

  function Step(ui: GameUiState, e: Event): GameUiState {
    match e
    case DoubleClick(c) => OnCardDoubleClick(ui, c)
    case StockClick => OnStockClick(ui)
    case UndoClick => Undo(ui)
  }

  function Run(ui: GameUiState, events: seq<Event>): GameUiState
    decreases |events|
  {
    if |events| == 0 then ui else Run(Step(ui, events[0]), events[1..])
  }

  /** One step keeps the counter equal to the history length and every
      snapshot well typed. */
  lemma StepKeepsInvariant(ui: GameUiState, e: Event)
    requires Consistent(ui) && SessionWellTyped(ui)
    ensures Consistent(Step(ui, e)) && SessionWellTyped(Step(ui, e))
  {
    match e {
      case DoubleClick(c) => DoubleClickKeepsInvariant(ui, c);
      case StockClick => StockClickKeepsInvariant(ui);
      case UndoClick => UndoClickKeepsInvariant(ui);
    }
  }

  lemma DoubleClickKeepsInvariant(ui: GameUiState, c: Card)
    requires Consistent(ui) && SessionWellTyped(ui)
    ensures Consistent(OnCardDoubleClick(ui, c)) && SessionWellTyped(OnCardDoubleClick(ui, c))
  {
    match FindValidMove(ui.gameState, c) {
      case Some(m) => MakeMoveKeepsInvariant(ui, m.source, m.target, m.card);
      case None =>
    }
  }

  lemma MakeMoveKeepsInvariant(ui: GameUiState, from: Pile, to: Pile, card: Card)
    requires Consistent(ui) && SessionWellTyped(ui)
    ensures Consistent(MakeMove(ui, from, to, card)) && SessionWellTyped(MakeMove(ui, from, to, card))
  {
    if card in from.cards {
      var r := ApplyMove(ui.gameState, from, to, card);
      assert MakeMove(ui, from, to, card) == Record(ui, r);
      ApplyMoveWellTyped(ui.gameState, from, to, card);
      RecordThenUndo(ui, r);
      RecordKeepsSessionWellTyped(ui, r);
    }
  }

  /** Recording a well-typed snapshot keeps every snapshot well typed. */
  lemma RecordKeepsSessionWellTyped(ui: GameUiState, next: GameState)
    requires SessionWellTyped(ui) && next.WellTyped()
    ensures SessionWellTyped(Record(ui, next))
  {
    var r := Record(ui, next);
    assert forall i :: 0 <= i < |r.undoStack| ==> r.undoStack[i] == (ui.undoStack + [ui.gameState])[i];
  }

  lemma StockClickKeepsInvariant(ui: GameUiState)
    requires Consistent(ui) && SessionWellTyped(ui)
    ensures Consistent(OnStockClick(ui)) && SessionWellTyped(OnStockClick(ui))
  {
    var s := ui.gameState;
    if s.stock.IsEmpty() {
      RecordThenUndo(ui, CycleWasteToStock(s));
    } else {
      StockClickDraws(ui);
      RecordThenUndo(ui, OnStockClick(ui).gameState);
    }
  }

  lemma UndoClickKeepsInvariant(ui: GameUiState)
    requires Consistent(ui) && SessionWellTyped(ui)
    ensures Consistent(Undo(ui)) && SessionWellTyped(Undo(ui))
  {
    if ui.CanUndo() {
      UndoKeepsConsistent(ui);
      assert ui.undoStack == Undo(ui).undoStack + [Undo(ui).gameState];
      assert ui.undoStack[|ui.undoStack| - 1] == Undo(ui).gameState;
    }
  }

  /** Starting from a fresh session on a well-typed deal, any sequence of
      events keeps `moveCount == |undoStack|` and every snapshot well typed. */
  lemma {:induction false} RunFromFreshKeepsInvariant(g: GameState, events: seq<Event>)
    requires g.WellTyped()
    ensures Consistent(Run(Fresh(g), events)) && SessionWellTyped(Run(Fresh(g), events))
  {
    RunKeepsInvariant(Fresh(g), events);
  }

  lemma {:induction false} RunKeepsInvariant(ui: GameUiState, events: seq<Event>)
    requires Consistent(ui) && SessionWellTyped(ui)
    ensures Consistent(Run(ui, events)) && SessionWellTyped(Run(ui, events))
    decreases |events|
  {
    if |events| > 0 {
      StepKeepsInvariant(ui, events[0]);
      RunKeepsInvariant(Step(ui, events[0]), events[1..]);
    }
  }

  /** A double-click that finds a move neither creates nor loses a card:
      the finder's source and target are two different piles of the board. */
  lemma DoubleClickKeepsCards(ui: GameUiState, card: Card)
    ensures multiset(OnCardDoubleClick(ui, card).gameState.AllCards()) == multiset(ui.gameState.AllCards())
  {
    var s := ui.gameState;
    match FindValidMove(s, card) {
      case Some(m) =>
        var i :| IsFirstHolder(s.AllPiles(), i, card) && s.AllPiles()[i] == m.source;
        assert m.source in s.AllPiles();
        assert m.target in s.AllPiles() by {
          assert s.AllPiles() == s.tableau + s.foundation + [s.stock, s.waste];
        }
        assert m.source != m.target by {
          if m.target in s.foundation && !(m.target in s.tableau) {
            var j :| IsFirstFoundationTarget(s, m.source, card, j) && m.target == s.foundation[j];
          }
        }
        ApplyMoveKeepsCards(s, m.source, m.target, card);
      case None =>
    }
  }

  /** Any step the view model records is reverted by one `Undo`, which
      brings back the previous session except that the timer keeps running. */
  lemma UndoRevertsSteps(ui: GameUiState, card: Card)
    ensures Undo(OnStockClick(ui)) == ui.(isTimerRunning := true)
    ensures FindValidMove(ui.gameState, card).Some? ==>
              Undo(OnCardDoubleClick(ui, card)) == ui.(isTimerRunning := true)
  {
    RecordThenUndo(ui, OnStockClick(ui).gameState);
    var m := FindValidMove(ui.gameState, card);
    if m.Some? {
      var i :| IsFirstHolder(ui.gameState.AllPiles(), i, card) && ui.gameState.AllPiles()[i] == m.value.source;
      RecordThenUndo(ui, ApplyMove(ui.gameState, m.value.source, m.value.target, card));
    }
  }

  // ---------------------------------------------------------------------
  // The replace-every-match reading of `updatePile`
  // ---------------------------------------------------------------------

  /** Each pile equal to `oldPile` becomes `newPile`; the rest stay. */
  function ReplaceAll(piles: seq<Pile>, oldPile: Pile, newPile: Pile): (r: seq<Pile>)
    ensures |r| == |piles|
    ensures forall i :: 0 <= i < |piles| && piles[i] == oldPile ==> r[i] == newPile
    ensures forall i :: 0 <= i < |piles| && piles[i] != oldPile ==> r[i] == piles[i]
  {
    if |piles| == 0 then []
    else
      var rest := ReplaceAll(piles[1..], oldPile, newPile);
      assert forall i :: 1 <= i < |piles| ==> piles[i] == piles[1..][i - 1];
      [if piles[0] == oldPile then newPile else piles[0]] + rest
  }

  /** `updatePile` read as replacing every pile equal to `oldPile`, as
      `map { if (it == old) new else it }` over each list would. The model
      uses the first-match `UpdatePile`; this reading is carried only to show
      what the first-match choice decides. */
  function UpdatePileEverywhere(s: GameState, oldPile: Pile, newPile: Pile): (r: GameState)
    ensures |r.tableau| == |s.tableau| && |r.foundation| == |s.foundation|
    ensures forall i :: 0 <= i < |s.tableau| && s.tableau[i] == oldPile ==> r.tableau[i] == newPile
    ensures forall i :: 0 <= i < |s.tableau| && s.tableau[i] != oldPile ==> r.tableau[i] == s.tableau[i]
  {
    GameState(ReplaceAll(s.tableau, oldPile, newPile), ReplaceAll(s.foundation, oldPile, newPile),
              if s.stock == oldPile then newPile else s.stock,
              if s.waste == oldPile then newPile else s.waste)
  }

  /** `ApplyMove` under the replace-every-match reading. */
  function ApplyMoveEverywhere(s: GameState, from: Pile, to: Pile, card: Card): (r: GameState)
    requires card in from.cards
    ensures |r.tableau| == |s.tableau| && |r.foundation| == |s.foundation|
  {
    var cardIndex := IndexOf(from.cards, card);
    var cardsToMove := from.cards[cardIndex..];
    var newFromPile := from.RemoveTopCards(|cardsToMove|).value.1;
    var newToPile := to.AddCards(cardsToMove);
    UpdatePileEverywhere(UpdatePileEverywhere(s, from, newFromPile), to, newToPile)
  }
}

=== FILE: optional.dfy ===
/** Failure-carrying values used across the model: Kotlin's nullable
    results become `Option`, and the pile primitives that throw become
    `Result`. */
module Optional {

  /** A value that may be absent (Kotlin `T?`). */
  datatype Option<T> = None | Some(value: T)

  /** A value or the error that the primitive would have thrown. */
  datatype Result<T, E> = Ok(value: T) | Err(error: E)
}

=== FILE: pile.dfy ===
/** Piles (model/Pile.kt): a typed list of cards whose last element is the
    top. Every operation returns a new pile of the same type. */
module Piles {
  import opened Optional
  import opened Seqs
  import opened Cards

  /** The role a pile plays on the table (Kotlin `Pile.Type`). */
  datatype PileType = Tableau | Foundation | Stock | Waste

  /** The structural errors the removal primitives raise. */
  datatype PileError = EmptyPile | InsufficientCards

  datatype Pile = Pile(kind: PileType, cards: seq<Card>) {

    predicate IsEmpty()
      ensures IsEmpty() <==> Size() == 0
    {
      |cards| == 0
    }

    function Size(): nat {
      |cards|
    }

    /** The last card (Kotlin `lastOrNull`). */
    function TopCard(): (r: Option<Card>)
      ensures r.None? <==> IsEmpty()
      ensures r.Some? ==> r.value in cards && r.value == cards[Size() - 1]
    {
      if |cards| == 0 then None else Some(cards[|cards| - 1])
    }

    /** Puts `c` on top. */
    function AddCard(c: Card): (r: Pile)
      ensures r.kind == kind
      ensures r.Size() == Size() + 1
      ensures r.TopCard() == Some(c)
      ensures r.cards[..Size()] == cards
    {
      Pile(kind, cards + [c])
    }

    /** Kotlin `cards - card`: drops the first card equal to `c`, if any. */
    function RemoveCard(c: Card): (r: Pile)
      ensures r.kind == kind
      ensures c !in cards ==> r == this
      ensures c in cards ==> r.Size() == Size() - 1
      ensures c in cards ==> r.cards == cards[..IndexOf(cards, c)] + cards[IndexOf(cards, c) + 1..]
      ensures c in cards ==> multiset(r.cards) + multiset{c} == multiset(cards)
    {
      RemoveFirstMultiset(cards, c);
      Pile(kind, RemoveFirst(cards, c))
    }

    /** Puts `newCards` on top, keeping their order. */
    function AddCards(newCards: seq<Card>): (r: Pile)
      ensures r.kind == kind
      ensures r.Size() == Size() + |newCards|
      ensures r.cards[..Size()] == cards && r.cards[Size()..] == newCards
    {
      Pile(kind, cards + newCards)
    }

    /** Kotlin `cards.filter { it !in cardsToRemove }`. */
    function RemoveCards(cardsToRemove: seq<Card>): (r: Pile)
      ensures r.kind == kind
      ensures r.Size() <= Size()
      ensures forall i :: 0 <= i < r.Size() ==> r.cards[i] in cards && r.cards[i] !in cardsToRemove
      ensures forall i :: 0 <= i < Size() && cards[i] !in cardsToRemove ==> cards[i] in r.cards
    {
      Pile(kind, Filter(cards, c => c !in cardsToRemove))
    }

    /** Splits off the top `n` cards, returning them (bottom to top) and the
        remaining pile; fails when the pile holds fewer than `n` cards. This
        `Int` overload is defined elsewhere in the Kotlin project; it is
        assumed here as its call site at GameViewModel.kt:64 uses it, and the
        failure case is assumed, since that call site does not check. */
    function RemoveTopCards(n: nat): (r: Result<(seq<Card>, Pile), PileError>)
      ensures r.Err? <==> n > Size()
      ensures r.Err? ==> r.error == InsufficientCards
      ensures r.Ok? ==> |r.value.0| == n && r.value.1.kind == kind
      ensures r.Ok? ==> r.value.1.AddCards(r.value.0) == this
    {
      if n > |cards| then Err(InsufficientCards)
      else
        var keep := |cards| - n;
        assert cards == cards[..keep] + cards[keep..];
        Ok((cards[keep..], Pile(kind, cards[..keep])))
    }

    /** Takes the top card off; fails on an empty pile. Defined elsewhere in
        the Kotlin project; assumed here as its call site at
        GameViewModel.kt:101 uses it, and the failure case is assumed. */
    function RemoveTopCard(): (r: Result<(Card, Pile), PileError>)
      ensures r.Err? <==> IsEmpty()
      ensures r.Err? ==> r.error == EmptyPile
      ensures r.Ok? ==> TopCard() == Some(r.value.0)
      ensures r.Ok? ==> r.value.1.AddCard(r.value.0) == this
    {
      if |cards| == 0 then Err(EmptyPile)
      else
        assert cards == cards[..|cards| - 1] + [cards[|cards| - 1]];
        Ok((cards[|cards| - 1], Pile(kind, cards[..|cards| - 1])))
    }
  }

  /** One step of a tableau run: `upper` lies directly on `lower`, so it is
      of the other colour and one rank lower. */
  predicate StacksOn(lower: Card, upper: Card) {
    lower.IsRed() != upper.IsRed() && lower.rank.Value() == upper.rank.Value() + 1
  }

  /** Kotlin `Pile.isValidTableauSequence`, defined elsewhere in the Kotlin
      project; assumed here as its call site at GameLogic.kt:106 uses it. Reading the
      run from the bottom card up, colours alternate and ranks fall by one. */
  function IsValidTableauSequence(run: seq<Card>): (r: bool)
    ensures r <==> forall i :: 0 <= i < |run| - 1 ==> StacksOn(run[i], run[i + 1])
  {
    if |run| <= 1 then true
    else
      var rest := IsValidTableauSequence(run[1..]);
      assert forall i :: 1 <= i < |run| - 1 ==> run[i] == run[1..][i - 1] && run[i + 1] == run[1..][i];
      StacksOn(run[0], run[1]) && rest
  }

  /** Removing then re-adding the same card restores the pile. */
  lemma AddRemoveCardInverse(p: Pile, c: Card)
    ensures p.AddCard(c).RemoveTopCard() == Ok((c, p))
  {
    assert (p.cards + [c])[..|p.cards|] == p.cards;
  }

  /** Removing a card that is not in the pile, such as the face-down copy of
      a face-up card, changes nothing. */
  lemma RemoveOtherFaceIsNoOp(p: Pile, c: Card)
    requires c in p.cards
    requires forall i :: 0 <= i < |p.cards| ==> p.cards[i].faceUp == c.faceUp
    ensures p.RemoveCard(c.(faceUp := !c.faceUp)) == p
    ensures p.RemoveCard(c) != p
  {
  }

  /** `RemoveCards` keeps the survivors in their original relative order:
      it works piece by piece over any split of the pile. */
  lemma RemoveCardsSplits(kind: PileType, a: seq<Card>, b: seq<Card>, cardsToRemove: seq<Card>)
    ensures Pile(kind, a + b).RemoveCards(cardsToRemove).cards
         == Pile(kind, a).RemoveCards(cardsToRemove).cards + Pile(kind, b).RemoveCards(cardsToRemove).cards
  {
    FilterAppend(a, b, c => c !in cardsToRemove);
  }

  /** A pile containing none of the removed cards is returned unchanged. */
  lemma RemoveCardsAbsent(p: Pile, cardsToRemove: seq<Card>)
    requires forall i :: 0 <= i < |p.cards| ==> p.cards[i] !in cardsToRemove
    ensures p.RemoveCards(cardsToRemove) == p
  {
    FilterAll(p.cards, c => c !in cardsToRemove);
  }
}

=== FILE: scenarios.dfy ===
/** The concrete situations exercised by the repository's unit tests
    (GameLogicTest.kt), stated as facts about the model. */
module Scenarios {
  import opened Optional
  import opened Seqs
  import opened Cards
  import opened Piles
  import opened GameStates
  import opened GameLogic
  import opened UiStates
  import opened ViewModel
  import ViewModelFacts

  function Up(suit: Suit, rank: Rank): Card {
    Card(suit, rank, true)
  }

  function Board(tableau: seq<Pile>, foundation: seq<Pile>): GameState {
    GameState(tableau, foundation, Pile(Stock, []), Pile(Waste, []))
  }

  /** A two of hearts that fits both the ace of hearts and a black three
      goes to the foundation. */
  lemma FoundationBeatsTableau()
    ensures var two := Up(Hearts, Two);
      var source := Pile(Tableau, [two]);
      var foundation := Pile(Foundation, [Up(Hearts, Ace)]);
      var s := Board([source, Pile(Tableau, [Up(Spades, Three)])], [foundation]);
      FindValidMove(s, two) == Some(Move(source, foundation, two))
  {
    var two := Up(Hearts, Two);
    var source := Pile(Tableau, [two]);
    var foundation := Pile(Foundation, [Up(Hearts, Ace)]);
    var s := Board([source, Pile(Tableau, [Up(Spades, Three)])], [foundation]);
    assert s.AllPiles()[0] == source;
    assert IsFirstHolder(s.AllPiles(), 0, two);
    assert IsFirstFoundationTarget(s, source, two, 0);
  }

  /** A run whose colours do not alternate is not moved, even onto a pile
      that would take its first card. */
  lemma InvalidRunStays()
    ensures var eight := Up(Spades, Eight);
      var s := Board([Pile(Tableau, [eight, Up(Clubs, Seven)]), Pile(Tableau, [Up(Hearts, Nine)])], []);
      FindValidMove(s, eight).None?
  {
    var eight := Up(Spades, Eight);
    var source := Pile(Tableau, [eight, Up(Clubs, Seven)]);
    var s := Board([source, Pile(Tableau, [Up(Hearts, Nine)])], []);
    assert IsFirstHolder(s.AllPiles(), 0, eight);
    assert !IsValidSequence(source.cards);
  }

  /** A valid three-card run moves onto the red nine as one unit. */
  lemma ValidRunMoves()
    ensures var eight := Up(Spades, Eight);
      var run := [eight, Up(Hearts, Seven), Up(Clubs, Six)];
      var nine := Pile(Tableau, [Up(Hearts, Nine)]);
      var s := Board([Pile(Tableau, run), nine], []);
      IsValidSequence(run) && FindValidMove(s, eight) == Some(Move(Pile(Tableau, run), nine, eight))
  {
    var eight := Up(Spades, Eight);
    var run := [eight, Up(Hearts, Seven), Up(Clubs, Six)];
    var source := Pile(Tableau, run);
    var nine := Pile(Tableau, [Up(Hearts, Nine)]);
    var s := Board([source, nine], []);
    assert IsFirstHolder(s.AllPiles(), 0, eight);
    assert StacksOn(run[0], run[1]) && StacksOn(run[1], run[2]);
    assert IsValidSequence(run);
    assert IndexOf(run, eight) == 0 && run[0..] == run;
    assert !HasFoundationTarget(s, source, eight);
    assert !TableauRule(source, eight, source);
    assert IsFirstTableauTarget(s, source, eight, 1);
  }

  /** A two-card run never goes to a foundation, even when its first card
      would fit there. */
  lemma RunNotToFoundation()
    ensures var two := Up(Hearts, Two);
      var s := Board([Pile(Tableau, [two, Up(Spades, Ace)])], [Pile(Foundation, [Up(Hearts, Ace)])]);
      FindValidMove(s, two).None?
  {
    var two := Up(Hearts, Two);
    var source := Pile(Tableau, [two, Up(Spades, Ace)]);
    var s := Board([source], [Pile(Foundation, [Up(Hearts, Ace)])]);
    assert IsFirstHolder(s.AllPiles(), 0, two);
  }

  /** A king (with the queen on it) may go to the empty column; the queen
      alone may not. */
  lemma KingToEmptyColumn()
    ensures var king, queen := Up(Hearts, King), Up(Spades, Queen);
      var source := Pile(Tableau, [king, queen]);
      var s := Board([source, Pile(Tableau, [])], []);
      FindValidMove(s, king) == Some(Move(source, Pile(Tableau, []), king))
      && FindValidMove(s, queen).None?
  {
    var king, queen := Up(Hearts, King), Up(Spades, Queen);
    var source := Pile(Tableau, [king, queen]);
    var s := Board([source, Pile(Tableau, [])], []);
    assert IsFirstHolder(s.AllPiles(), 0, king);
    assert IsFirstHolder(s.AllPiles(), 0, queen);
    assert !TableauRule(source, king, source);
    assert IsFirstTableauTarget(s, source, king, 1);
  }

  /** The run is checked only for a non-empty target: a king carrying a run
      that does not alternate still goes to an empty column. */
  lemma KingTakesInvalidRunToEmptyColumn()
    ensures var king, five := Up(Spades, King), Up(Hearts, Five);
      var source := Pile(Tableau, [king, five]);
      var s := Board([source, Pile(Tableau, [])], []);
      && !IsValidSequence([king, five])
      && FindTableauMove(s, king, source) == Some(Move(source, Pile(Tableau, []), king))
  {
    var king, five := Up(Spades, King), Up(Hearts, Five);
    var source := Pile(Tableau, [king, five]);
    var s := Board([source, Pile(Tableau, [])], []);
    assert !StacksOn(king, five);
    assert !TableauRule(source, king, source);
    assert IsFirstTableauTarget(s, source, king, 1);
  }

  /** Double-clicking that king then counts a move and records history but
      leaves the board as it was: the emptied source column equals the
      empty target column by value, and the second pile update lands on
      the source slot. */
  lemma KingToEmptyColumnLeavesBoard(ui: GameUiState)
    requires ui.gameState == Board([Pile(Tableau, [Up(Hearts, King), Up(Spades, Queen)]), Pile(Tableau, [])], [])
    ensures var r := OnCardDoubleClick(ui, Up(Hearts, King));
      r.gameState == ui.gameState && r.moveCount == ui.moveCount + 1
      && r.undoStack == ui.undoStack + [ui.gameState]
  {
    var king := Up(Hearts, King);
    var source := Pile(Tableau, [king, Up(Spades, Queen)]);
    var empty := Pile(Tableau, []);
    var s := ui.gameState;
    KingClickMakesMove(ui);
    WholeColumnMoveIsRecordedNoOp(ui, source, empty, king);
  }

  lemma WholeColumnMoveIsRecordedNoOp(ui: GameUiState, from: Pile, to: Pile, card: Card)
    requires |ui.gameState.tableau| > 1 && ui.gameState.tableau[0] == from && ui.gameState.tableau[1] == to
    requires |from.cards| > 0 && from.cards[0] == card && to == Pile(from.kind, [])
    ensures MakeMove(ui, from, to, card) == Record(ui, ui.gameState)
  {
    WholeColumnToLaterEmptyColumnAt(ui.gameState, from, to, card);
  }

  lemma KingClickMakesMove(ui: GameUiState)
    requires ui.gameState == Board([Pile(Tableau, [Up(Hearts, King), Up(Spades, Queen)]), Pile(Tableau, [])], [])
    ensures var king := Up(Hearts, King);
      OnCardDoubleClick(ui, king) == MakeMove(ui, Pile(Tableau, [king, Up(Spades, Queen)]), Pile(Tableau, []), king)
  {
    KingToEmptyColumn();
  }

  lemma WholeColumnToLaterEmptyColumnAt(s: GameState, from: Pile, to: Pile, card: Card)
    requires |s.tableau| > 1 && s.tableau[0] == from && s.tableau[1] == to
    requires |from.cards| > 0 && from.cards[0] == card && to == Pile(from.kind, [])
    ensures ApplyMove(s, from, to, card) == s
  {
    var piles := s.AllPiles();
    assert piles[0] == from && piles[1] == to && from != to;
    assert IndexOf(piles, from) == 0;
    assert IndexOf(piles, to) == 1 by {
      assert piles[1..][0] == to;
    }
    ViewModelFacts.WholeColumnToLaterEmptyColumn(s, from, to, card);
  }

  /** The two readings of `updatePile` part ways on a lone king moved to the
      next, empty column when a second empty column follows. First match
      leaves the board unchanged; replacing every match puts a king in all
      three columns, so the board gains two cards. */
  lemma UpdateReadingsDiffer()
    ensures var king := Up(Hearts, King);
      var column, empty := Pile(Tableau, [king]), Pile(Tableau, []);
      var s := Board([column, empty, empty], []);
      && FindValidMove(s, king) == Some(Move(column, empty, king))
      && ApplyMove(s, column, empty, king) == s
      && ViewModelFacts.ApplyMoveEverywhere(s, column, empty, king).tableau == [column, column, column]
      && multiset(ViewModelFacts.ApplyMoveEverywhere(s, column, empty, king).AllCards()) != multiset(s.AllCards())
  {
    var king := Up(Hearts, King);
    var column, empty := Pile(Tableau, [king]), Pile(Tableau, []);
    var s := Board([column, empty, empty], []);
    LoneKingFindsNextColumn(s);
    WholeColumnToLaterEmptyColumnAt(s, column, empty, king);
    EverywhereTriplesKing(s);
  }

  lemma LoneKingFindsNextColumn(s: GameState)
    requires s == Board([Pile(Tableau, [Up(Hearts, King)]), Pile(Tableau, []), Pile(Tableau, [])], [])
    ensures FindValidMove(s, Up(Hearts, King)) == Some(Move(Pile(Tableau, [Up(Hearts, King)]), Pile(Tableau, []), Up(Hearts, King)))
  {
    var king := Up(Hearts, King);
    var column := Pile(Tableau, [king]);
    assert s.AllPiles()[0] == column;
    assert IsFirstHolder(s.AllPiles(), 0, king);
    assert !TableauRule(column, king, column);
    assert IsFirstTableauTarget(s, column, king, 1);
  }

  lemma EverywhereTriplesKing(s: GameState)
    requires s == Board([Pile(Tableau, [Up(Hearts, King)]), Pile(Tableau, []), Pile(Tableau, [])], [])
    ensures var king := Up(Hearts, King);
      var column, empty := Pile(Tableau, [king]), Pile(Tableau, []);
      var r := ViewModelFacts.ApplyMoveEverywhere(s, column, empty, king);
      r.tableau == [column, column, column] && multiset(r.AllCards()) != multiset(s.AllCards())
  {
    var king := Up(Hearts, King);
    var column, empty := Pile(Tableau, [king]), Pile(Tableau, []);
    var r := ViewModelFacts.ApplyMoveEverywhere(s, column, empty, king);
    assert ViewModelFacts.UpdatePileEverywhere(s, column, empty).tableau == [empty, empty, empty];
    assert r.tableau == [column, column, column];
    assert r.stock == s.stock && r.waste == s.waste && r.foundation == [];
    ThreeKings(r, king);
    OneKing(s, king);
  }

  lemma ThreeKings(r: GameState, king: Card)
    requires r.tableau == [Pile(Tableau, [king]), Pile(Tableau, [king]), Pile(Tableau, [king])]
    requires r.foundation == [] && r.stock == Pile(Stock, []) && r.waste == Pile(Waste, [])
    ensures multiset(r.AllCards())[king] == 3
  {
    FlattenAppend(r.tableau + r.foundation, [r.stock, r.waste]);
    assert r.tableau + r.foundation == r.tableau;
    FlattenThree(r.tableau[0], r.tableau[1], r.tableau[2]);
    FlattenTwo(r.stock, r.waste);
    assert r.tableau == [r.tableau[0], r.tableau[1], r.tableau[2]];
    assert r.AllCards() == [king, king, king];
  }

  lemma OneKing(s: GameState, king: Card)
    requires s.tableau == [Pile(Tableau, [king]), Pile(Tableau, []), Pile(Tableau, [])]
    requires s.foundation == [] && s.stock == Pile(Stock, []) && s.waste == Pile(Waste, [])
    ensures multiset(s.AllCards())[king] == 1
  {
    FlattenAppend(s.tableau + s.foundation, [s.stock, s.waste]);
    assert s.tableau + s.foundation == s.tableau;
    FlattenThree(s.tableau[0], s.tableau[1], s.tableau[2]);
    FlattenTwo(s.stock, s.waste);
    assert s.tableau == [s.tableau[0], s.tableau[1], s.tableau[2]];
    assert s.AllCards() == [king];
  }

  lemma FlattenTwo(a: Pile, b: Pile)
    ensures Flatten([a, b]) == a.cards + b.cards
  {
    assert [a, b][1..] == [b];
    assert [b][1..] == [];
    assert Flatten([b]) == b.cards + Flatten([]);
  }

  lemma FlattenThree(a: Pile, b: Pile, c: Pile)
    ensures Flatten([a, b, c]) == a.cards + b.cards + c.cards
  {
    assert [a, b, c][1..] == [b, c];
    FlattenTwo(b, c);
  }

  /** Recycling the waste ace, two, three of hearts puts three, two, ace in
      the stock (bottom first) and empties the waste. */
  lemma CycleReversesWaste()
    ensures var a, b, c := Up(Hearts, Ace), Up(Hearts, Two), Up(Hearts, Three);
      var s := GameState([], [], Pile(Stock, []), Pile(Waste, [a, b, c]));
      var r := CycleWasteToStock(s);
      r.stock.cards == [c, b, a] && r.waste.IsEmpty()
  {
  }

  /** The complete given suit, ace to king, face up. */
  function FullSuit(suit: Suit): seq<Card> {
    seq(13, i requires 0 <= i < 13 => Up(suit, AllRanks[i]))
  }

  /** One complete foundation is not a win; four are. */
  lemma WinNeedsFourFullFoundations()
    ensures !Board([], [Pile(Foundation, FullSuit(Hearts))]).IsGameWon()
    ensures Board([], [Pile(Foundation, FullSuit(Hearts)), Pile(Foundation, FullSuit(Diamonds)),
                       Pile(Foundation, FullSuit(Clubs)), Pile(Foundation, FullSuit(Spades))]).IsGameWon()
  {
  }
}

=== FILE: seqs.dfy ===
/** The Kotlin collection operations the engine relies on (`indexOf`,
    `minus`, `filter`, `find`, `reversed`), stated once over `seq`. */
module Seqs {
  import opened Optional

  /** `i` is the first position of `s` whose element satisfies `p`. */
  ghost predicate IsFirstWhere<T>(s: seq<T>, i: int, p: T -> bool) {
    0 <= i < |s| && p(s[i]) && forall j :: 0 <= j < i ==> !p(s[j])
  }

  /** Kotlin `indexOf`: position of the first element equal to `x`, or -1. */
  function IndexOf<T(==)>(s: seq<T>, x: T): (r: int)
    ensures -1 <= r < |s|
    ensures r == -1 <==> x !in s
    ensures r >= 0 ==> s[r] == x && x !in s[..r]
  {
    if |s| == 0 then -1
    else if s[0] == x then 0
    else
      var k := IndexOf(s[1..], x);
      if k == -1 then -1
      else
        assert s[..k + 1] == [s[0]] + s[1..][..k];
        k + 1
  }

  /** Searching a concatenation finds the first part's occurrence first. */
  lemma {:induction false} IndexOfAppend<T>(a: seq<T>, b: seq<T>, x: T)
    ensures x in a ==> IndexOf(a + b, x) == IndexOf(a, x)
    ensures x !in a && x in b ==> IndexOf(a + b, x) == |a| + IndexOf(b, x)
    ensures x !in a && x !in b ==> IndexOf(a + b, x) == -1
  {
    if |a| > 0 {
      assert (a + b)[0] == a[0];
      assert (a + b)[1..] == a[1..] + b;
      IndexOfAppend(a[1..], b, x);
    } else {
      assert a + b == b;
    }
  }

  /** Overwriting a position that neither held `x` nor receives it does
      not move the first occurrence of `x`. */
  lemma {:induction false} IndexOfUpdate<T>(s: seq<T>, k: int, y: T, x: T)
    requires 0 <= k < |s| && s[k] != x && y != x
    ensures IndexOf(s[k := y], x) == IndexOf(s, x)
  {
    if k == 0 {
      assert s[k := y][1..] == s[1..];
    } else {
      assert s[k := y][0] == s[0];
      assert s[k := y][1..] == s[1..][k - 1 := y];
      IndexOfUpdate(s[1..], k - 1, y, x);
    }
  }

  /** Overwriting position `k` keeps the first occurrence of `x` in place
      when `k` did not hold `x` and either the new value differs from `x` or
      `x` already occurs before `k`. */
  lemma IndexOfUpdateKeeps<T>(s: seq<T>, k: int, y: T, x: T)
    requires 0 <= k < |s| && s[k] != x && x in s
    requires y != x || IndexOf(s, x) < k
    ensures IndexOf(s[k := y], x) == IndexOf(s, x)
  {
    if y != x {
      IndexOfUpdate(s, k, y, x);
    } else {
      var j := IndexOf(s, x);
      var t := s[k := y];
      assert t[..j] == s[..j];
      assert t[j := x] == t;
      IndexOfPlaced(t, j, x);
    }
  }

  /** Writing `x` at a position before any existing occurrence makes that
      position the first occurrence. */
  lemma IndexOfPlaced<T>(s: seq<T>, k: int, x: T)
    requires 0 <= k < |s| && x !in s[..k]
    ensures IndexOf(s[k := x], x) == k
  {
    var t := s[k := x];
    assert t[..k] == s[..k];
    assert t[k] == x;
    var r := IndexOf(t, x);
    assert r >= 0;
  }

  /** Updating one position of a concatenation updates the part holding it. */
  lemma UpdateAppend<T>(a: seq<T>, b: seq<T>, i: int, x: T)
    requires 0 <= i < |a| + |b|
    ensures i < |a| ==> (a + b)[i := x] == a[i := x] + b
    ensures |a| <= i ==> (a + b)[i := x] == a + b[i - |a| := x]
  {
  }

  /** Kotlin `list - element`: drops the first element equal to `x` only. */
  function RemoveFirst<T(==)>(s: seq<T>, x: T): (r: seq<T>)
    ensures x !in s ==> r == s
    ensures x in s ==> |r| == |s| - 1 && r == s[..IndexOf(s, x)] + s[IndexOf(s, x) + 1..]
  {
    var i := IndexOf(s, x);
    if i == -1 then s else s[..i] + s[i + 1..]
  }

  /** Removing one occurrence takes exactly one copy of `x` out of the
      multiset of elements. */
  lemma RemoveFirstMultiset<T>(s: seq<T>, x: T)
    ensures x in s ==> multiset(RemoveFirst(s, x)) + multiset{x} == multiset(s)
  {
    if x in s {
      var i := IndexOf(s, x);
      var a, b := s[..i], s[i + 1..];
      assert s == a + ([x] + b);
      assert multiset(s) == multiset(a) + (multiset{x} + multiset(b));
    }
  }

  /** Kotlin `filter`: the elements satisfying `p`, in their original order. */
  function Filter<T>(s: seq<T>, p: T -> bool): (r: seq<T>)
    ensures |r| <= |s|
    ensures forall i :: 0 <= i < |r| ==> r[i] in s && p(r[i])
    ensures forall i :: 0 <= i < |s| && p(s[i]) ==> s[i] in r
  {
    if |s| == 0 then []
    else if p(s[0]) then [s[0]] + Filter(s[1..], p)
    else Filter(s[1..], p)
  }

  /** Filtering distributes over concatenation, so the survivors keep the
      relative order they had in the input. */
  lemma {:induction false} FilterAppend<T>(a: seq<T>, b: seq<T>, p: T -> bool)
    ensures Filter(a + b, p) == Filter(a, p) + Filter(b, p)
  {
    if |a| == 0 {
      assert a + b == b;
    } else {
      assert (a + b)[0] == a[0];
      assert (a + b)[1..] == a[1..] + b;
      FilterAppend(a[1..], b, p);
    }
  }

  /** When every element satisfies `p`, filtering changes nothing. */
  lemma {:induction false} FilterAll<T>(s: seq<T>, p: T -> bool)
    requires forall i :: 0 <= i < |s| ==> p(s[i])
    ensures Filter(s, p) == s
  {
    if |s| > 0 {
      FilterAll(s[1..], p);
    }
  }

  /** The conjunction of two tests. */
  function Both<T>(p: T -> bool, q: T -> bool): T -> bool {
    x => p(x) && q(x)
  }

  /** An element survives the filter exactly when it is in `s` and passes. */
  lemma FilterMembers<T>(s: seq<T>, p: T -> bool)
    ensures forall x :: x in Filter(s, p) <==> x in s && p(x)
  {
    forall x | x in s && p(x)
      ensures x in Filter(s, p)
    {
      var k :| 0 <= k < |s| && s[k] == x;
    }
  }

  /** Two successive filters keep exactly the elements passing both. */
  lemma {:induction false} FilterFilter<T>(s: seq<T>, p: T -> bool, q: T -> bool)
    ensures Filter(Filter(s, p), q) == Filter(s, Both(p, q))
  {
    if |s| > 0 {
      FilterFilter(s[1..], p, q);
      if p(s[0]) {
        var t := [s[0]] + Filter(s[1..], p);
        assert t[0] == s[0] && t[1..] == Filter(s[1..], p);
      }
    }
  }

  /** The head of a filtered sequence is the first element that passes. */
  lemma {:induction false} FilterHead<T>(s: seq<T>, p: T -> bool)
    ensures |Filter(s, p)| == 0 <==> forall i :: 0 <= i < |s| ==> !p(s[i])
    ensures |Filter(s, p)| > 0 ==> exists i :: IsFirstWhere(s, i, p) && Filter(s, p)[0] == s[i]
  {
    if |s| > 0 {
      FilterHead(s[1..], p);
      if p(s[0]) {
        assert IsFirstWhere(s, 0, p);
      } else if |Filter(s, p)| > 0 {
        var i :| IsFirstWhere(s[1..], i, p) && Filter(s[1..], p)[0] == s[1..][i];
        assert IsFirstWhere(s, i + 1, p);
      } else {
        forall i | 0 <= i < |s|
          ensures !p(s[i])
        {
          if i > 0 {
            assert s[i] == s[1..][i - 1];
          }
        }
      }
    }
  }

  /** Kotlin `find` / `firstOrNull { … }`: the first element satisfying `p`. */
  function FindFirst<T>(s: seq<T>, p: T -> bool): (r: Option<T>)
    ensures r.None? <==> forall i :: 0 <= i < |s| ==> !p(s[i])
    ensures r.Some? ==> exists i :: IsFirstWhere(s, i, p) && s[i] == r.value
  {
    if |s| == 0 then None
    else if p(s[0]) then
      assert IsFirstWhere(s, 0, p);
      Some(s[0])
    else
      var r := FindFirst(s[1..], p);
      if r.Some? then
        FirstWhereShift(s, p, r.value);
        r
      else
        assert forall i :: 1 <= i < |s| ==> s[i] == s[1..][i - 1];
        r
  }

  /** A first match in the tail of `s` is a first match in `s` when the
      head does not pass. */
  lemma FirstWhereShift<T>(s: seq<T>, p: T -> bool, v: T)
    requires |s| > 0 && !p(s[0])
    requires exists i :: IsFirstWhere(s[1..], i, p) && s[1..][i] == v
    ensures exists i :: IsFirstWhere(s, i, p) && s[i] == v
  {
    var i :| IsFirstWhere(s[1..], i, p) && s[1..][i] == v;
    assert IsFirstWhere(s, i + 1, p);
  }

  /** Kotlin `reversed`. */
  function Reverse<T>(s: seq<T>): (r: seq<T>)
    ensures |r| == |s|
    ensures forall i :: 0 <= i < |s| ==> r[i] == s[|s| - 1 - i]
  {
    if |s| == 0 then [] else Reverse(s[1..]) + [s[0]]
  }

  /** Reversal is its own inverse and keeps the multiset of elements. */
  lemma ReverseInvolution<T>(s: seq<T>)
    ensures Reverse(Reverse(s)) == s
    ensures multiset(Reverse(s)) == multiset(s)
  {
    assert forall i :: 0 <= i < |s| ==> Reverse(Reverse(s))[i] == s[i];
    ReverseMultiset(s);
  }

  lemma {:induction false} ReverseMultiset<T>(s: seq<T>)
    ensures multiset(Reverse(s)) == multiset(s)
  {
    if |s| > 0 {
      ReverseMultiset(s[1..]);
      assert s == [s[0]] + s[1..];
    }
  }
}
